=== FILE: README.md ===
# Threaded AVL tree and combinatorial enumerators, in Dafny

This project models the ordered index at the heart of the repository: a
threaded AVL tree (avl.go). Every node of the tree stores one element and a
balance factor in {-1, 0, 1}. All the elements are also linked into a
doubly-linked in-order chain through `prv`/`nxt`, and the tree keeps `head`
and `tail` pointers to the ends of that chain. The tree supports `Insert`
(which replaces an element with an equal key), `Delete`, `Lookup` with a GTE
or LTE search, `Size`, and a bidirectional `Cursor` that walks the chain.

The model also covers two enumerators in combinatorics/:

- `Permutation` is a permutation of 0 .. n-1 held by its Lehmer code, a
  factorial-base number. It is stepped through by incrementing and
  decrementing that code.
- `Selection` is a subset of 0 .. n-1 held as a bit set in a big integer. It
  is stepped through by counting.

## How the model is laid out

- **elements.dfy**
  - `Optional` holds the `Option` datatype.
  - `Elements` holds elements: an integer key with a value, so that
    replacing an equal key is observable.
  - It defines sorted-sequence insertion (`InsertSorted`) and removal
    (`RemoveKey`). These are the reference behaviours of the tree.
- **avl_node.dfy** (`AvlNode`) is the node datatype. It defines height, the
  in-order sequence and the invariants the test file checks (search order
  and exact balance). It also holds the descent that `lookupNode`, `Insert`
  and `Delete` share.
- **avl_rebalance.dfy** (`Rebalance`) is `rebalanceAtNode` with its four
  rotations.
- **avl_insert.dfy** (`Insertion`) is the descent of `Insert` and its upward
  walk.
- **avl_delete.dfy** (`Deletion`) is the descent of `Delete`, its five
  relocation cases and its upward walk.
- **avl_tree.dfy** (`AvlTree`) is the `Tree` record with its `size`, `root`,
  `head` and `tail` fields, plus `Lookup`, `Insert`, `Delete` and `Size`.
  - The `prv`/`nxt` chain is a sequence field, `thread`.
  - `Valid` is the conjunction of the checks in `checkTree`:
    - search order;
    - exact balance in [-1, 1];
    - the chain equals the in-order sequence;
    - `size` counts the nodes;
    - `head` and `tail` are the ends of the chain.
- **avl_cursor.dfy** (`Cursors`) is `GetCursor`, `HasNext`, `HasPrev`,
  `Next` and `Prev`. They are modelled as written, with corrected variants
  where the code departs from its evident intent.
- **avl_scenarios.dfy** (`Scenarios`) covers two things:
  - the insert/delete run of `TestAvl`;
  - the seven-key worked example (insert 5, 3, 8, 1, 4, 7, 9), with its
    lookups, a deletion and a cursor walk.
- **lehmer.dfy** (`Lehmer`) holds the Lehmer code as a function pair
  `Encode`/`Decode`, and the rank of a code in the factorial number system.
- **permutation.dfy** (`Permutations`) is `permutation.go`.
- **selection.dfy** (`Selections`) is `selection.go`.

Pointer structure becomes values:

- A node is a `Node(l, data, bal, r)` value.
- The parent pointer `p` is implicit.
- The upward walks of `Insert` and `Delete` are modelled as the recursion
  that unwinds after the descent, carrying the "grew" or "shrunk" flag that
  the source propagates in its loop.

The model follows the code where the code departs from its doc comments
or from what its structure evidently intends:

- Deleting the last element takes the root early return (avl.go:496-499).
  That path leaves `head` and `tail` pointing at the deleted element.
  `AvlTree.Valid` constrains `head`/`tail` only for a non-empty chain, and
  `Cursors.StaleHeadDelivered` shows a cursor still delivering the deleted
  element afterwards.
- `GetCursor` with LTE below every key gives a cursor before the head, so
  its first `Next` returns the head, while `Lookup` returns nil. This is why
  `Cursors.GetCursorStartsAtLookup` is stated only where the two agree, and
  `Cursors.GetCursorLteBelowHead` states the case where they do not.
- The relocation case at avl.go:468-493 moves a successor that is deeper
  than the deleted node's right child. Under the AVL invariant it can never
  run: a node without a left child has a right subtree of height at most 1.
  `Deletion.NoDeepSuccessor` proves this, and the model leaves that branch
  as unreachable.
- The cursor's `HasNext`/`HasPrev`, `Prev` of both the cursor and
  `Permutation`, and `Valid` of `Permutation` do not do what their names and
  doc comments promise. They are modelled as written, and the corrections are stated
  beside them (see Findings).

## Model

| member | source | states |
|---|---|---|
| AvlNode.CountIsLength | avl_test.go:11-34 | the number of nodes `treeCounts` reports equals the length of the in-order sequence |
| AvlNode.HeightBound | avl_test.go:177-186 | an AVL-balanced tree of height h holds at least the Fibonacci-like minimum number of nodes for h, so its height is logarithmic in its size |
| AvlNode.DescendSplits | avl.go:51-79 | in a search tree the descent stops at an in-order position that splits the keys: everything before it is smaller, everything after it is larger, and the comparison there is the key against that element |
| Rebalance.RebalanceAtNode | avl.go:86-267 | a rotation happens exactly when the node is out of balance by two and its heavy child's balance is in [-1, 1]; a rotation never changes the in-order sequence (so it never disturbs the chain) |
| Rebalance.RebalanceRestores | avl.go:86-267 | rotating a node that is two out of balance restores exact AVL balances; the height drops by one exactly when the heavy child was not balanced, and otherwise the new root and the old node lean by one in opposite directions |
| Insertion.InsertFix | avl.go:333-368 | one step of the insertion walk keeps the in-order sequence and gives a balanced node; a balance of 0 stops the walk and ±1 continues it; after a rotation the walk continues only if the height did not drop |
| Insertion.InsertNode | avl.go:281-368 | insertion keeps the tree AVL-balanced, grows its height by at most one, and leaves the shape and balances untouched when it replaces an equal key |
| Insertion.InsertNodeInorder | avl.go:281-332 | the in-order sequence after insertion is the sorted insertion of the new element into the old one (an equal key is replaced in place) |
| Insertion.InsertNodeDisplaced | avl.go:299-304 | insertion returns the old element exactly when the key was already stored, and that element is the stored one with the same key |
| Insertion.InsertNodeOrdered | avl.go:281-298 | insertion keeps keys strictly increasing in order |
| Deletion.DeleteFix | avl.go:526-561 | one step of the deletion walk keeps the in-order sequence and gives a balanced node; a balance of 0 means the height dropped and the walk continues, ±1 stops it; after a rotation the walk continues only if the height dropped |
| Deletion.RemoveMax | avl.go:422-447 | detaching the in-order predecessor from deep in the left subtree leaves a balanced subtree whose in-order sequence, followed by the detached element, is the original one |
| Deletion.DeleteAt | avl.go:398-524 | removing the node found by the search leaves a balanced subtree whose height dropped by at most one, as reported |
| Deletion.DeleteAtInorder | avl.go:398-524 | removing the found node leaves exactly its left in-order sequence followed by its right one |
| Deletion.DeleteNode | avl.go:374-561 | deletion keeps the tree AVL-balanced and shrinks its height by at most one, as reported |
| Deletion.DeleteNodeInorder | avl.go:374-524 | the in-order sequence after deletion is the old one with the element of that key removed |
| Deletion.DeleteNodeAbsent | avl.go:383-397 | deleting a key that is not stored changes nothing |
| Deletion.CaseOf | avl.go:402-495 | the relocation case of the matched node: C0 and C1 when it has a left child (its predecessor is that child, or lies deeper), C2 and C3 when it has only a right child (its successor is that child, or lies deeper), C4 for a leaf |
| Deletion.NoDeepSuccessor | avl.go:468-493 | in an AVL tree, a node without a left child never has a successor deeper than its right child, so this relocation case is dead |
| AvlTree.Valid | avl_test.go:204-210 | `checkTree`: search order, AVL balances, the size counter, and the chain with its `head` and `tail` ends, which is the in-order sequence |
| AvlTree.EmptyTree | avl.go:11-16 | the zero tree satisfies every invariant of `checkTree`, with size 0 and no head or tail |
| AvlTree.Size | avl.go:82-84 | the stored size equals the number of nodes reachable from the root |
| AvlTree.LookupIndex | avl.go:51-79 | GTE finds the first element whose key is at least the search key, LTE the last whose key is at most it, nil when there is none; exact means the key is stored, and then the found element has that key |
| AvlTree.Lookup | avl.go:43-49 | the value found is a stored element that is the least one at or above the key (GTE) or the greatest one at or below it (LTE); nil means every key lies on the wrong side; the flag is true exactly when the key is stored |
| AvlTree.Insert | avl.go:271-369 | insertion reports the replaced element with the same key and keeps the size, or reports nil and grows the size by one |
| AvlTree.InsertValid | avl.go:271-369 | insertion keeps every `checkTree` invariant, and the chain becomes the sorted insertion of the element into the old chain |
| AvlTree.InsertThread | avl.go:305-332 | splicing the new node next to its parent makes the chain equal the new in-order sequence |
| AvlTree.InsertReplaces | avl.go:299-304 | an old value is returned exactly when the key was present; it is the stored element, and the shape and balances are unchanged |
| AvlTree.Delete | avl.go:374-562 | a missing key leaves the tree unchanged and returns nil; a found key returns the element with that key and shrinks the size by one |
| AvlTree.DeleteValid | avl.go:374-562 | deletion keeps every `checkTree` invariant, the chain loses exactly the element with that key, and found is true exactly when the key was present |
| AvlTree.DeleteTwice | avl.go:374-397 | deleting the same key a second time finds nothing and changes nothing |
| AvlTree.DeleteLastLeavesEnds | avl.go:494-499 | deleting the only element empties the root and the size, but `head` and `tail` still point at the deleted element |
| AvlTree.InsertTwice | avl.go:299-304 | a second insert of an equal key returns the first element and keeps the size |
| AvlTree.InsertThenDelete | avl.go:374-562 | deleting a key just inserted returns that element and restores the original chain and size |
| AvlTree.InsertAbove | avl.go:305-332 | inserting a key above every stored key appends it to the chain and returns nil |
| AvlTree.DeleteKeys | avl.go:374-562 | after deleting k, a key j is stored exactly when it was stored before and differs from k |
| Cursors.GetCursor | avl.go:564-580 | the cursor sits where the lookup found; for GTE every element before it is below the key and every one after is at or above it; for LTE every element after it is above the key, and when nothing was found the cursor sits before the head with every element above the key; exact means the key is stored |
| Cursors.Next | avl.go:594-611 | `Next` delivers the element just after the cursor's gap and moves one to the right; past the tail it delivers nil and stays |
| Cursors.Prev | avl.go:613-633 | from a node, `Prev` delivers the element before the gap and moves one left; it panics exactly when past the tail on a tree whose `tail` is nil |
| Cursors.HasNext | avl.go:582-586 | `HasNext` as written: true when the cursor is at a node, or past the tail of a non-empty tree (its behaviour is stated by Cursors.HasNextSwapped) |
| Cursors.HasPrev | avl.go:588-592 | `HasPrev` as written: true when the cursor is at a node that has a predecessor, or before the head of a non-empty tree (its behaviour is stated by Cursors.HasNextSwapped) |
| Cursors.HasNextSwapped | avl.go:582-592 | past the tail `HasNext` is true while `Next` returns nil and stays put, and `HasPrev` is false while `Prev` delivers the tail; before the head it is the other way round |
| Cursors.PrevAtEndSkips | avl.go:613-625 | past the tail of a chain of two or more, `Prev` delivers the tail, but the following `Next` delivers the element before the tail instead of the tail again |
| Cursors.PrevOnFreshTreePanics | avl.go:617-625 | on a tree that never held an element, a cursor from a GTE lookup is past the tail, and `Prev` dereferences the nil `tail` |
| Cursors.PrevFixed | avl.go:613-633 | whenever the gap is not at the start, corrected `Prev` delivers the element just before the gap and moves the gap one to the left |
| Cursors.HasNextFixedMeansNext | avl.go:582-586 | corrected `HasNext` holds exactly when `Next` delivers an element, which is exactly when the gap is before the end of the chain |
| Cursors.HasPrevFixedMeansPrev | avl.go:588-592 | corrected `HasPrev` holds exactly when corrected `Prev` delivers an element, which is exactly when the gap is after the start of the chain |
| Cursors.NextThenPrevFixed | avl.go:613-616 | `Next` then corrected `Prev` delivers the same element twice and returns the cursor to its gap |
| Cursors.PrevThenNextFixed | avl.go:613-616 | corrected `Prev` then `Next` delivers the same element twice and returns the cursor to its gap |
| Cursors.TraverseForward | avl.go:594-611 | iterating `Next` while corrected `HasNext` holds delivers the rest of the chain in order and ends past the tail |
| Cursors.TraverseBackward | avl.go:613-633 | iterating corrected `Prev` while corrected `HasPrev` holds delivers the chain before the cursor in reverse order and ends before the head |
| Cursors.GetCursorStartsAtLookup | avl.go:564-567 | the first `Next` of a new cursor delivers what `Lookup` returns, whenever `Lookup` finds something or the search is GTE |
| Cursors.GetCursorLteBelowHead | avl.go:568-580 | as written, an LTE cursor for a key below every stored key delivers the head first, while `Lookup` returns nil |
| Cursors.StaleHeadDelivered | avl.go:494-499 | after the only element is deleted, a cursor opened below every key still delivers the deleted element through the stale `head` |
| Scenarios.InsertAscending | avl_test.go:254-265 | inserting 0 .. n-1 in order never returns an old value, keeps every `checkTree` invariant, and leaves the chain 0 .. n-1 |
| Scenarios.DeleteStep | avl_test.go:271-289 | one delete of the test removes exactly that key; it returns the key the first time and nothing on a repeat, with the size following suit |
| Scenarios.DeletePhase | avl_test.go:266-294 | for any sequence of keys below n, deleting them keeps the tree valid, finds each key exactly on its first deletion, and leaves size n minus the number of distinct keys |
| Scenarios.BuildSeven | avl_test.go:204-210 | inserting 5, 3, 8, 1, 4, 7, 9 gives a valid tree of height 3 whose chain is 1, 3, 4, 5, 7, 8, 9 |
| Scenarios.SevenLookups | avl.go:43-79 | on that tree GTE 6 finds 7 inexactly, LTE 6 finds 5 inexactly, and GTE 7 finds 7 exactly |
| Scenarios.SevenCursor | avl.go:564-625 | on that tree a GTE 4 cursor delivers 4 and then 5, and a `Prev` afterwards delivers 5 again |
| Scenarios.SevenDelete | avl.go:374-562 | for any valid tree holding the seven keys, deleting 5 returns it and leaves the valid chain 1, 3, 4, 7, 8, 9; in the tree the seven inserts build, 5 is the root with two children and the relocation is case C1 (avl.go:422-447) |
| Lehmer.DecodeEncode | combinatorics/permutation.go:95-117 | decoding the Lehmer code of a permutation of 0 .. n-1 gives the permutation back |
| Lehmer.EncodeDecode | combinatorics/permutation.go:95-117 | encoding the permutation an in-range code stands for gives the code back |
| Lehmer.DecodePerm | combinatorics/permutation.go:95-105 | an in-range code decodes to a permutation of 0 .. n-1 |
| Lehmer.EncodeInRange | combinatorics/permutation.go:107-117 | the code of a permutation has digit i in 0 .. n-1-i |
| Lehmer.CodesArePermutations | combinatorics/permutation.go:59-69 | a sequence is a permutation of 0 .. n-1 exactly when its code is in range and decodes back to it |
| Lehmer.RankBound | combinatorics/permutation.go:177-187 | the rank of an in-range code of n elements lies in 0 .. n!-1 |
| Lehmer.CompareCodesRank | combinatorics/permutation.go:189-214 | comparing codes digit by digit orders them as their ranks are ordered |
| Lehmer.RankInjective | combinatorics/permutation.go:189-214 | two in-range codes of one length with equal rank are equal |
| Permutations.MkLcode | combinatorics/permutation.go:107-117 | the in-place double loop computes the Lehmer code of the permutation |
| Permutations.MkPerm | combinatorics/permutation.go:95-105 | the in-place double loop computes the permutation the code stands for |
| Permutations.Valid | combinatorics/permutation.go:59-69 | `Valid` holds exactly when every code digit i lies in 0 .. n-1-i |
| Permutations.GetPermutation | combinatorics/permutation.go:14-23 | the entries are accepted exactly when there is at least one and the code of all but the last is in range; every permutation of 0 .. n-1 is accepted, and an accepted permutation keeps the entries as given with an in-range code |
| Permutations.GetPermutationIgnoresLast | combinatorics/permutation.go:59-69 | whether the entries are accepted never depends on the last entry: replacing it by any value gives the same verdict |
| Permutations.GetPermutationAcceptsOutOfRange | combinatorics/permutation.go:14-23 | the entries 0, 5 are accepted, and `Index` at 1 returns 5, outside 0 .. n-1 |
| Permutations.GetPermutationAcceptsRepeats | combinatorics/permutation.go:59-69 | the entries 0, 0 are accepted although they repeat, and their stored code stands for 0, 1 |
| Permutations.GetPermutationFixed | combinatorics/permutation.go:14-23 | with the corrected check, exactly the permutations of 0 .. n-1 are accepted, and their code decodes to the entries |
| Permutations.Code | combinatorics/permutation.go:75-83 | an index outside the code gives -1; inside, digit k of an in-range code lies in 0 .. n-1-k |
| Permutations.Index | combinatorics/permutation.go:85-93 | an index outside 0 .. n-1 gives -1; inside, the entry of a proper permutation (its code in range and its entries the ones the code stands for) lies in 0 .. n-1 |
| Permutations.IndexIsPermutation | combinatorics/permutation.go:85-93 | distinct positions of a proper permutation hold distinct entries (as written, `GetPermutation` also accepts repeated entries, see Findings) |
| Permutations.FirstPermutation | combinatorics/permutation.go:177-179 | the first permutation has rank 0 |
| Permutations.LastPermutation | combinatorics/permutation.go:181-187 | the last permutation has rank n!-1 |
| Permutations.Next | combinatorics/permutation.go:143-158 | `Next` returns a permutation exactly when `HasNext` holds, over the same n |
| Permutations.NextIncrements | combinatorics/permutation.go:143-158 | `Next` keeps the code in range and adds exactly one to its rank |
| Permutations.HasNext | combinatorics/permutation.go:119-129 | `HasNext`: some digit is below its maximum (Permutations.HasNextRank gives its meaning) |
| Permutations.HasPrev | combinatorics/permutation.go:131-141 | `HasPrev`: some digit is above zero (Permutations.HasPrevRank gives its meaning) |
| Permutations.HasNextRank | combinatorics/permutation.go:119-129 | `HasNext` holds exactly when the rank is below n!-1 |
| Permutations.HasPrevRank | combinatorics/permutation.go:131-141 | `HasPrev` holds exactly when the rank is above 0 |
| Permutations.Prev | combinatorics/permutation.go:160-175 | `Prev` as written returns nil only for n = 1 and never changes a digit but the last |
| Permutations.PrevDoesNotUndoNext | combinatorics/permutation.go:160-175 | from code 0, 1, `Next` gives 1, 0, but `Prev` of that gives 1, 1 rather than 0, 1 |
| Permutations.PrevFixed | combinatorics/permutation.go:160-175 | corrected `Prev` returns a permutation exactly when `HasPrev` holds, over the same n |
| Permutations.PrevFixedDecrements | combinatorics/permutation.go:160-175 | corrected `Prev` keeps the code in range and subtracts exactly one from its rank |
| Permutations.PrevFixedAfterNext | combinatorics/permutation.go:143-175 | corrected `Prev` undoes `Next` |
| Permutations.NextAfterPrevFixed | combinatorics/permutation.go:143-175 | `Next` undoes corrected `Prev` |
| Permutations.CompareTo | combinatorics/permutation.go:189-214 | the result is -1, 0 or 1; 0 exactly for the same n and code; different n are ordered by n |
| Permutations.CompareToRank | combinatorics/permutation.go:189-214 | for one n, `CompareTo` orders permutations by rank, that is lexicographically |
| Permutations.CompareToAntisymmetric | combinatorics/permutation.go:189-214 | swapping the arguments negates the result |
| Permutations.NextIsGreater | combinatorics/permutation.go:143-158 | `Next` always gives a permutation that compares greater |
| Permutations.EnumeratePermutations | combinatorics/combinatorics_test.go:8-17 | stepping `Next` from the first permutation while `HasNext` holds visits exactly n! permutations and ends at the last one |
| Selections.BitLenFits | combinatorics/selection.go:24-27 | a non-negative number has at most k bits exactly when it is below 2^k |
| Selections.FirstSelection | combinatorics/selection.go:13-15 | the first selection selects nothing and has no predecessor |
| Selections.LastSelection | combinatorics/selection.go:17-22 | the last selection selects exactly 0 .. n-1 and has no successor |
| Selections.HasNext | combinatorics/selection.go:24-27 | `HasNext` holds exactly when x+1 still fits in n bits |
| Selections.HasPrev | combinatorics/selection.go:29-31 | `HasPrev` holds exactly when some element is selected |
| Selections.Next | combinatorics/selection.go:33-38 | `Next` keeps n, and from an in-range selection with a successor it stays within n bits |
| Selections.Prev | combinatorics/selection.go:40-45 | `Prev` keeps n, and from an in-range selection with a predecessor it stays within n bits |
| Selections.NextPrevInverse | combinatorics/selection.go:33-45 | `Prev` undoes `Next` and `Next` undoes `Prev` |
| Selections.Test | combinatorics/selection.go:48-50 | no index at or above the bit length of x is selected |
| Selections.String | combinatorics/selection.go:52-70 | the rendering is a brace, the n membership digits separated by commas, and a closing brace |
| Selections.StringRoundTrip | combinatorics/selection.go:52-70 | reading the digits of the rendering back as binary gives x, so the rendering loses nothing |
| Selections.EnumerateSelections | combinatorics/combinatorics_test.go:19-28 | stepping `Next` from the first selection while `HasNext` holds visits exactly 2^n selections and ends at the last one |

## Left out

- Parent pointers `p`, and node identity: the model is a value tree. The
  parent checks of `checkStructuralIntegrity` (avl_test.go:36-93) hold by
  construction.
- The `prv`/`nxt` links are one chain sequence, `thread`. The checks of
  `inorderSucc`, `inorderPred` and `checkLinks` (avl_test.go:95-139) are the
  `Valid` conjunct "chain equals in-order sequence".
- The relocation body of the case at avl.go:468-493 is not modelled:
  `Deletion.NoDeepSuccessor` proves it is never reached, and the model marks
  that branch unreachable.
- `Comparable` (comparable.go) is an interface. Keys are modelled as
  integers, with their total order standing for `CompareTo`.
- The other files are not part of this model:
  - set.go, set/set.go and tree/tree.go are wrappers over the tree's public
    operations;
  - lookup.go and cursor.go are declarations only.
- `LookupType`: only the GTE and LTE searches are modelled. In the source,
  any other value acts as LTE when the search runs off a left child and as
  GTE when it runs off a right child.
- `size` is a `uint` and `bal` an `int8`. Neither can overflow for a tree
  that fits in memory, so both are unbounded here.
- Cursors over a tree that is modified after the cursor was opened are not
  modelled. A cursor is an index into one fixed tree.
- Cursors.Next: its contract describes the gap only for trees whose `head`
  and `tail` are not stale. After the last element is deleted, the stale
  case is shown separately by `Cursors.StaleHeadDelivered`.
- Cursors.Prev: its contract describes the gap only when the cursor is on a
  node. The behaviour past the tail is stated by `Cursors.PrevAtEndSkips`.
- Cursors.PrevFixed, Cursors.HasNextFixedMeansNext and
  Cursors.HasPrevFixedMeansPrev: like the source, they assume the
  `head`/`tail` are not stale.
- Scenarios: `TestAvl` draws its delete keys from `rand`, and here they are
  the `keys` parameter of `DeletePhase`. The fixed N = 10000 and 6000
  deletions are the parameters `n` and `|keys|`. `checkTree` after every
  step is the `Valid` invariant.
- `TestAvl2` (a 5-million-element timing run), `dumpTree`, `strnode`, and
  the printing in the tests are left out: they are output only.
- `Permutation.String`, `CodeString` and `Order` (permutation.go:25-57,
  71-73) are formatting and a field read, and are left out.
- `Permutation` fills in `perm` and `lcode` lazily, mutating the receiver.
  Here, `Entries` and the code are recomputed values.
- `Permutation` with n = 0 panics in the source (a negative `make`).
  `FirstPermutation` and `LastPermutation` require n >= 1, and
  `GetPermutation` returns `None` for no entries.
- Permutations.GetPermutation: the source panics when `Valid` fails, and
  also for no entries, where building the code makes a slice of length -1.
  The model returns `None` in both cases.
- Permutations.Index: the range of the result is stated only for `Proper`
  permutations. `GetPermutation` as written stores entries that may repeat
  or lie outside 0 .. n-1 (for example 0, 5), and `Index` returns them
  unchanged; `Permutations.GetPermutationAcceptsOutOfRange` shows this.
- Permutations.Code: the range of the result is stated only for codes in
  range, which every code `GetPermutation` accepts is.
- Cursors.GetCursorStartsAtLookup: the doc comment of `GetCursor` promises
  without condition that the first value is what `Lookup` returns. For LTE
  below every key the code places the cursor before the head, so the first
  `Next` returns the head while `Lookup` returns nil; the lemma leaves that
  case out, and `Cursors.GetCursorLteBelowHead` states it.
- Selections.Next and Selections.Prev: the source copies the `big.Int`
  header, which may share the digit array with the receiver. The model
  treats the result as a fresh value.
- Selection's `n` is a `uint` converted with `int(s.n)`; its wrap-around
  for n >= 2^63 is not modelled.
- Selections.Test: a negative index makes `big.Int.Bit` panic, so `idx` is
  a natural number.

## Findings

| source | as written | input that shows it | evidently intended | confidence | as-written member | corrected member |
|---|---|---|---|---|---|---|
| avl.go:582-592 | `HasNext` is true when the cursor is past the tail and `HasPrev` when it is before the head | a GTE cursor for a key above every stored key on a non-empty tree: `HasNext` is true, `Next` returns nil and stays put, so `for c.HasNext() { c.Next() }` never ends | `HasNext` true before the head, `HasPrev` true past the tail | high, not executed | Cursors.HasNextSwapped | Cursors.HasNextFixedMeansNext |
| avl.go:613-625 | past the tail, `Prev` returns `tail` but sets `nextNode` to `tail.prv` | chain 1, 2 with the cursor past the tail: `Prev` returns 2, then `Next` returns 1 | `nextNode` set to `tail`, so that the following `Next` re-delivers it as the doc comment says | high, not executed | Cursors.PrevAtEndSkips | Cursors.PrevThenNextFixed |
| combinatorics/permutation.go:59-69 | `Valid` checks only the code, which is computed from every entry but the last | `GetPermutation(0, 0)` is accepted; its code 0 stands for 0, 1 | reject entries that are not a permutation of 0 .. n-1 | high, not executed | Permutations.GetPermutationAcceptsRepeats | Permutations.GetPermutationFixed |
| combinatorics/permutation.go:160-175 | the loop body returns unconditionally in its first iteration, so only the last digit changes | code 1, 0 (the result of `Next` on 0, 1): `Prev` gives 1, 1 instead of 0, 1 | decrement the rightmost non-zero digit, set the later digits to their maxima, and return nil at the first permutation | high, not executed | Permutations.PrevDoesNotUndoNext | Permutations.PrevFixedAfterNext |

=== FILE: avl_cursor.dfy ===
/**
 The bidirectional `Cursor` of avl.go (lines 564-633) over a fixed tree.
 `nextNode` is an index into the element chain (`None` is nil), so that
 `nxt` and `prv` are the neighbouring indices and `head`/`tail` are read from
 the tree's fields exactly as the source reads them.

 A cursor sits in a gap of the chain: `Gap` counts the elements before it.
 `Next` delivers the element after the gap and moves right; `Prev` should
 deliver the element before the gap and move left. The functions below model
 the source as written; the `Fixed` variants model the evident intent where
 the source departs from it (see README, Findings).
 */
module Cursors {
  import opened Optional
  import opened Elements
  import opened AvlTree

  /** `nextNode` and `end`; the `tree` field is the tree passed alongside. */
  datatype Cursor = Cursor(next: Option<nat>, end: bool)

  /** The outcome of a cursor move: the moved cursor and the value returned,
      or the nil-pointer dereference the source panics with. */
  datatype Step<V> = Step(c: Cursor, val: Option<Elem<V>>) | NilDeref

  /** A cursor the operations can produce: `nextNode` is a node of the tree,
      and `end` is only ever set together with a nil `nextNode`. */
  ghost predicate Positioned<V>(t: Tree<V>, c: Cursor) {
    c.next.Some? ==> c.next.value < |t.thread| && !c.end
  }

  /** The chain gap the cursor sits in: before `nextNode`, after the tail
      (nil with `end`), or before the head (nil without `end`). */
  ghost function Gap<V>(t: Tree<V>, c: Cursor): nat {
    match c.next
    case Some(i) => i
    case None => if c.end then |t.thread| else 0
  }

  /** An empty tree whose `head` and `tail` still point at a deleted element. */
  ghost predicate Stale<V>(t: Tree<V>) {
    |t.thread| == 0 && (t.head.Some? || t.tail.Some?)
  }

  /** `GetCursor` (avl.go:568-580): the cursor starts at the node `lookupNode`
      finds; when there is none, a GTE cursor starts past the tail and an LTE
      cursor before the head. */
  function GetCursor<V>(t: Tree<V>, lt: LookupType, key: int): (res: (Cursor, bool))
    requires Valid(t)
    ensures Positioned(t, res.0)
    ensures res.1 <==> HasKey(t.thread, key)
    ensures lt == GTE ==> forall j :: 0 <= j < Gap(t, res.0) ==> t.thread[j].key < key
    ensures lt == GTE ==> forall j :: Gap(t, res.0) <= j < |t.thread| ==> key <= t.thread[j].key
    ensures lt == LTE && res.0.next.Some? ==> t.thread[Gap(t, res.0)].key <= key
    ensures lt == LTE ==> forall j :: Gap(t, res.0) < j < |t.thread| ==> key < t.thread[j].key
    ensures lt == LTE && res.0.next.None? ==> forall j :: 0 <= j < |t.thread| ==> key < t.thread[j].key
  {
    var (n, exact) := LookupIndex(t, lt, key);
    if n.Some? then
      LookupBrackets(t.thread, lt, key, n.value);
      (Cursor(n, false), exact)
    else
      (Cursor(n, lt == GTE), exact)
  }

  /** The index a lookup finds brackets the key: for GTE every element before
      it lies below the key and every element from it on does not; for LTE
      every element after it lies above the key. */
  lemma LookupBrackets<V>(s: seq<Elem<V>>, lt: LookupType, key: int, i: nat)
    requires Increasing(s) && IsLookup(s, lt, key, Some(i))
    ensures lt == GTE ==> forall j :: 0 <= j < i ==> s[j].key < key
    ensures lt == GTE ==> forall j :: i <= j < |s| ==> key <= s[j].key
    ensures lt == LTE ==> forall j :: i < j < |s| ==> key < s[j].key
  {
    assert lt == GTE ==> forall j :: 0 <= j < i ==> s[..i][j] == s[j];
    assert lt == LTE ==> forall j :: i < j < |s| ==> s[i + 1..][j - i - 1] == s[j];
  }

  /** `HasNext` as written (avl.go:583-586). */
  function HasNext<V>(t: Tree<V>, c: Cursor): bool {
    c.next.Some? || (c.next.None? && c.end && t.size > 0)
  }

  /** `HasPrev` as written (avl.go:589-592). */
  function HasPrev<V>(t: Tree<V>, c: Cursor): bool {
    (c.next.Some? && c.next.value > 0) || (c.next.None? && !c.end && t.size > 0)
  }

  /** `Next` (avl.go:595-611): nothing past the tail; from before the head,
      start at `head`; deliver the element and step along `nxt`, setting
      `end` when that runs off the chain. */
  function Next<V>(t: Tree<V>, c: Cursor): (res: Step<V>)
    requires Valid(t) && Positioned(t, c)
    ensures res.Step? && Positioned(t, res.c)
    ensures !Stale(t) && Gap(t, c) < |t.thread| ==>
              res.val == Some(t.thread[Gap(t, c)]) && Gap(t, res.c) == Gap(t, c) + 1
    ensures !Stale(t) && Gap(t, c) == |t.thread| ==> res.val.None? && Gap(t, res.c) == Gap(t, c)
  {
    match c.next
    case None =>
      if c.end then Step(c, None)
      else if t.head.None? then Step(c, None)
      else
        // head.nxt: the second element, or nil for a one-element chain and
        // for a stale head, which was the only node when it was deleted
        Step(if 1 < |t.thread| then Cursor(Some(1), false) else Cursor(None, true), t.head)
    case Some(i) =>
      Step(if i + 1 < |t.thread| then Cursor(Some(i + 1), c.end) else Cursor(None, true), Some(t.thread[i]))
  }

  /** `Prev` as written (avl.go:617-633). Past the tail it delivers `tail` but
      leaves `nextNode` at `tail.prv`; on a tree that never held an element
      `tail` is nil and the dereference panics. */
  function Prev<V>(t: Tree<V>, c: Cursor): (res: Step<V>)
    requires Valid(t) && Positioned(t, c)
    ensures res.Step? ==> Positioned(t, res.c)
    ensures res.NilDeref? <==> c == Cursor(None, true) && t.tail.None?
    ensures c.next.Some? ==>
              res.Step? && Gap(t, res.c) == Gap(t, c) - 1 + (if Gap(t, c) == 0 then 1 else 0)
              && res.val == (if Gap(t, c) == 0 then None else Some(t.thread[Gap(t, c) - 1]))
  {
    match c.next
    case None =>
      if !c.end then Step(c, None)
      else if t.tail.None? then NilDeref
      else
        // nextNode = tail.prv
        var n := if 2 <= |t.thread| then Some(|t.thread| - 2) else None;
        Step(Cursor(n, false), t.tail)
    case Some(i) =>
      if i == 0 then Step(Cursor(None, c.end), None)
      else Step(Cursor(Some(i - 1), c.end), Some(t.thread[i - 1]))
  }

  /** `HasNext` as intended: true exactly when `Next` delivers an element. */
  function HasNextFixed<V>(t: Tree<V>, c: Cursor): bool {
    c.next.Some? || (c.next.None? && !c.end && t.size > 0)
  }

  /** `HasPrev` as intended: true exactly when `Prev` delivers an element. */
  function HasPrevFixed<V>(t: Tree<V>, c: Cursor): bool {
    (c.next.Some? && c.next.value > 0) || (c.next.None? && c.end && t.size > 0)
  }

  /** `Prev` as intended: past the tail, deliver `tail` and leave `nextNode`
      at `tail`, so that the following `Next` delivers it again. */
  function PrevFixed<V>(t: Tree<V>, c: Cursor): (res: Step<V>)
    requires Valid(t) && Positioned(t, c)
    ensures res.Step? ==> Positioned(t, res.c)
    ensures res.NilDeref? <==> c == Cursor(None, true) && t.tail.None?
    ensures !Stale(t) && 0 < Gap(t, c) ==>
              res == Step(res.c, Some(t.thread[Gap(t, c) - 1])) && Gap(t, res.c) == Gap(t, c) - 1
  {
    if c.next.None? && c.end && 0 < |t.thread| then
      Step(Cursor(Some(|t.thread| - 1), false), t.tail)
    else
      Prev(t, c)
  }

  /** The source's `HasNext` and `HasPrev` are swapped in the two nil states:
      past the tail `HasNext` holds although `Next` returns nil and leaves the
      cursor where it is (so `for c.HasNext() { c.Next() }` never ends), and
      `HasPrev` fails although `Prev` delivers the tail; before the head it is
      the other way round. */
  lemma HasNextSwapped<V>(t: Tree<V>)
    requires Valid(t) && 0 < |t.thread|
    ensures var past := Cursor(None, true);
            && HasNext(t, past) && Next(t, past) == Step(past, None)
            && !HasPrev(t, past) && Prev(t, past).Step? && Prev(t, past).val == Some(t.thread[|t.thread| - 1])
    ensures var before := Cursor(None, false);
            && HasPrev(t, before) && Prev(t, before) == Step(before, None)
            && !HasNext(t, before) && Next(t, before).val == Some(t.thread[0])
  {
  }

  /** Past the tail of a chain of two or more, `Prev` delivers the tail but the
      following `Next` delivers the element before it, not the tail again. */
  lemma PrevAtEndSkips<V>(t: Tree<V>)
    requires Valid(t) && 2 <= |t.thread|
    ensures var s := t.thread;
            var back := Prev(t, Cursor(None, true));
            && back == Step(back.c, Some(s[|s| - 1]))
            && Next(t, back.c).val == Some(s[|s| - 2])
            && s[|s| - 2] != s[|s| - 1]
  {
    var s := t.thread;
    assert s[|s| - 2].key < s[|s| - 1].key;
  }

  /** A cursor opened on a tree that never held an element is past the tail,
      and `Prev` there dereferences the nil `tail`. */
  lemma PrevOnFreshTreePanics<V>(key: int)
    ensures var t := EmptyTree<V>();
            Prev(t, GetCursor(t, GTE, key).0) == NilDeref
  {
  }

  /** `HasNextFixed` holds exactly when `Next` delivers an element, which is
      exactly when the cursor's gap is before the end of the chain. */
  lemma HasNextFixedMeansNext<V>(t: Tree<V>, c: Cursor)
    requires Valid(t) && Positioned(t, c) && !Stale(t)
    ensures HasNextFixed(t, c) <==> Next(t, c).val.Some?
    ensures HasNextFixed(t, c) <==> Gap(t, c) < |t.thread|
  {
  }

  /** `HasPrevFixed` holds exactly when `PrevFixed` delivers an element, which
      is exactly when the cursor's gap is after the start of the chain. */
  lemma HasPrevFixedMeansPrev<V>(t: Tree<V>, c: Cursor)
    requires Valid(t) && Positioned(t, c) && !Stale(t)
    ensures HasPrevFixed(t, c) <==> PrevFixed(t, c).Step? && PrevFixed(t, c).val.Some?
    ensures HasPrevFixed(t, c) <==> 0 < Gap(t, c)
  {
  }

  /** With the fix, a `Next` followed by `Prev` delivers the same element
      twice and puts the cursor back in its gap. */
  lemma NextThenPrevFixed<V>(t: Tree<V>, c: Cursor)
    requires Valid(t) && Positioned(t, c) && !Stale(t) && HasNextFixed(t, c)
    ensures var fwd := Next(t, c);
            var back := PrevFixed(t, fwd.c);
            && back.Step? && back.val == fwd.val && fwd.val.Some?
            && Gap(t, back.c) == Gap(t, c)
  {
    HasNextFixedMeansNext(t, c);
  }

  /** With the fix, a `Prev` followed by `Next` delivers the same element
      twice and puts the cursor back in its gap. */
  lemma PrevThenNextFixed<V>(t: Tree<V>, c: Cursor)
    requires Valid(t) && Positioned(t, c) && !Stale(t) && HasPrevFixed(t, c)
    ensures var back := PrevFixed(t, c);
            && back.Step? && back.val.Some?
            && Next(t, back.c).val == back.val
            && Gap(t, Next(t, back.c).c) == Gap(t, c)
  {
    HasPrevFixedMeansPrev(t, c);
  }

  /** Iterating forwards with the fixed `HasNext` delivers the rest of the
      chain, in order, and ends past the tail. */
  method TraverseForward<V>(t: Tree<V>, c0: Cursor) returns (out: seq<Elem<V>>, c: Cursor)
    requires Valid(t) && Positioned(t, c0) && !Stale(t)
    ensures out == t.thread[Gap(t, c0)..]
    ensures Positioned(t, c) && Gap(t, c) == |t.thread| && !HasNextFixed(t, c)
  {
    out := [];
    c := c0;
    while HasNextFixed(t, c)
      invariant Positioned(t, c) && Gap(t, c0) <= Gap(t, c) <= |t.thread|
      invariant out == t.thread[Gap(t, c0)..Gap(t, c)]
      decreases |t.thread| - Gap(t, c)
    {
      HasNextFixedMeansNext(t, c);
      var step := Next(t, c);
      out := out + [step.val.value];
      c := step.c;
    }
    HasNextFixedMeansNext(t, c);
  }

  /** Iterating backwards with the fixed `HasPrev` and `Prev` delivers the
      chain before the cursor, last element first. */
  method TraverseBackward<V>(t: Tree<V>, c0: Cursor) returns (out: seq<Elem<V>>, c: Cursor)
    requires Valid(t) && Positioned(t, c0) && !Stale(t)
    ensures |out| == Gap(t, c0)
    ensures forall j :: 0 <= j < |out| ==> out[j] == t.thread[Gap(t, c0) - 1 - j]
    ensures Positioned(t, c) && Gap(t, c) == 0 && !HasPrevFixed(t, c)
  {
    out := [];
    c := c0;
    while HasPrevFixed(t, c)
      invariant Positioned(t, c) && Gap(t, c) <= Gap(t, c0)
      invariant |out| == Gap(t, c0) - Gap(t, c)
      invariant forall j :: 0 <= j < |out| ==> out[j] == t.thread[Gap(t, c0) - 1 - j]
      decreases Gap(t, c)
    {
      HasPrevFixedMeansPrev(t, c);
      var step := PrevFixed(t, c);
      out := out + [step.val.value];
      c := step.c;
    }
    HasPrevFixedMeansPrev(t, c);
  }

  /** A cursor delivers first what `Lookup` finds, whenever `Lookup` finds
      something or the cursor looks upwards. */
  lemma GetCursorStartsAtLookup<V>(t: Tree<V>, lt: LookupType, key: int)
    requires Valid(t) && !Stale(t)
    ensures Lookup(t, lt, key).0.Some? || lt == GTE ==>
              Next(t, GetCursor(t, lt, key).0).val == Lookup(t, lt, key).0
  {
  }

  /** As written, an LTE cursor for a key below every stored key sits before
      the head, so its first `Next` delivers the head, while `Lookup` finds
      nothing: the first value is not the one `Lookup` would return. */
  lemma GetCursorLteBelowHead<V>(t: Tree<V>, key: int)
    requires Valid(t) && |t.thread| > 0 && key < t.thread[0].key
    ensures Lookup(t, LTE, key).0 == None
    ensures Next(t, GetCursor(t, LTE, key).0).val == Some(t.thread[0])
  {
  }

  /** After the only element was deleted, a cursor opened below every key
      still delivers the deleted element through the stale `head`. */
  lemma StaleHeadDelivered<V>(t: Tree<V>, k: int)
    requires Valid(t) && |t.thread| == 1 && t.thread[0].key == k
    ensures var t' := Delete(t, k).0;
            && Valid(t') && t'.size == 0
            && Next(t', GetCursor(t', LTE, k).0).val == Some(t.thread[0])
  {
    DeleteValid(t, k);
    DeleteLastLeavesEnds(t, k);
  }
}

=== FILE: avl_delete.dfy ===
/**
 Structural deletion (avl.go:379-509, 526-561). The matched node `cn` is
 taken out by one of five relocation cases, named after the source's debug
 labels C0-C4; the walk upward then starts at the node that really lost
 height (`bn`). As for insertion, the walk is the unwinding of the recursion,
 carrying the `shrunk` flag: balance 0 after an adjustment propagates, -1 or 1
 stops, -2 or 2 rotates and propagates only when the rotation reduced the
 height.
 */
module Deletion {
  import opened Elements
  import opened AvlNode
  import opened Rebalance

  /** The relocation cases of `Delete`, by the source's debug labels. */
  datatype DeleteCase =
    | C0  // left subtree; its maximum is the left child itself (avl.go:404-421)
    | C1  // left subtree; its maximum lies deeper (avl.go:422-447)
    | C2  // only a right subtree; its minimum is the right child itself (avl.go:450-467)
    | C3  // only a right subtree; its minimum lies deeper (avl.go:468-493)
    | C4  // no children (avl.go:494-509)

  /** Which case applies to the matched node. The source tests `dn.p == cn`
      for `dn = cn.prv` (or `cn.nxt`); in-order, the predecessor of a node with
      a left subtree is that subtree's rightmost node, which is the left child
      itself exactly when the left child has no right child. */
  function CaseOf<V>(cn: Node<V>): DeleteCase
    requires cn.Node?
  {
    if cn.l.Node? then (if cn.l.r.Nil? then C0 else C1)
    else if cn.r.Node? then (if cn.r.l.Nil? then C2 else C3)
    else C4
  }

  /** The new subtree and whether it is one level shorter than before. */
  datatype Removed<V> = Removed(root: Node<V>, shrunk: bool)

  /** The subtree left after detaching its extreme node `dn`, that node's
      element, and whether the subtree got shorter. */
  datatype Extracted<V> = Extracted(root: Node<V>, dn: Elem<V>, shrunk: bool)

  /** One step of the deletion walk (avl.go:527-559) at a node whose balance
      was just adjusted. */
  function DeleteFix<V>(n: Node<V>): (res: (Node<V>, bool))
    requires Adjusted(n)
    ensures Balanced(res.0) && Inorder(res.0) == Inorder(n)
    ensures -1 <= n.bal <= 1 ==> res.0 == n && (res.1 <==> n.bal == 0)
    ensures n.bal == -2 || n.bal == 2 ==>
              Height(res.0) + (if res.1 then 1 else 0) == Height(n)
  {
    if n.bal == 0 then (n, true)
    else if n.bal == -1 || n.bal == 1 then (n, false)
    else
      RebalanceRestores(n);
      var rot := RebalanceAtNode(n);
      // when the rotation reduced the height, the new subtree root has balance 0
      // and the source's loop goes round once more to propagate from it
      (rot.root, rot.heightChange)
  }

  /** The walk step after the left subtree of `n` was replaced by `l2`, one
      level shorter, and the node's element possibly by `y`: the balance goes
      up by one and `DeleteFix` reports whether `n`'s subtree got shorter. */
  lemma ShrinkLeft<V>(n: Node<V>, l2: Node<V>, y: Elem<V>)
    requires n.Node? && Balanced(n) && Balanced(l2) && Height(l2) + 1 == Height(n.l)
    ensures Adjusted(Node(l2, y, n.bal + 1, n.r))
    ensures var fix := DeleteFix(Node(l2, y, n.bal + 1, n.r));
            Height(fix.0) + (if fix.1 then 1 else 0) == Height(n)
  {
  }

  /** The mirror image of `ShrinkLeft`. */
  lemma ShrinkRight<V>(n: Node<V>, r2: Node<V>, y: Elem<V>)
    requires n.Node? && Balanced(n) && Balanced(r2) && Height(r2) + 1 == Height(n.r)
    ensures Adjusted(Node(n.l, y, n.bal - 1, r2))
    ensures var fix := DeleteFix(Node(n.l, y, n.bal - 1, r2));
            Height(fix.0) + (if fix.1 then 1 else 0) == Height(n)
  {
  }

  /** Detach the rightmost node `dn` of a subtree whose root has a right child
      (case C1): `dn`'s parent `bn` takes `dn.l` as its right child and its
      balance drops by one, then the walk runs upward to the subtree root. */
  function RemoveMax<V>(n: Node<V>): (res: Extracted<V>)
    requires Balanced(n) && n.Node? && n.r.Node?
    ensures Balanced(res.root)
    ensures Height(res.root) + (if res.shrunk then 1 else 0) == Height(n)
    ensures Inorder(res.root) + [res.dn] == Inorder(n)
  {
    var Node(l, x, b, r) := n;
    if r.r.Nil? then
      assert Balanced(r) && Balanced(r.l);
      assert Inorder(n) == Inorder(l) + [x] + Inorder(r.l) + [r.data];
      ShrinkRight(n, r.l, x);
      var fix := DeleteFix(Node(l, x, b - 1, r.l));
      Extracted(fix.0, r.data, fix.1)
    else
      var sub := RemoveMax(r);
      assert Inorder(n) == (Inorder(l) + [x] + Inorder(sub.root)) + [sub.dn];
      if sub.shrunk then
        ShrinkRight(n, sub.root, x);
        var fix := DeleteFix(Node(l, x, b - 1, sub.root));
        Extracted(fix.0, sub.dn, fix.1)
      else
        Extracted(Node(l, x, b, sub.root), sub.dn, false)
  }

  /** Relocation at the matched node `cn` followed by the start of the walk
      at `bn`. */
  function DeleteAt<V>(cn: Node<V>): (res: Removed<V>)
    requires cn.Node? && Balanced(cn)
    ensures Balanced(res.root)
    ensures Height(res.root) + (if res.shrunk then 1 else 0) == Height(cn)
  {
    var Node(l, x, b, r) := cn;
    match CaseOf(cn)
    case C0 =>
      // dn = cn.l moves up, keeping its left subtree and taking cn's right one
      assert Balanced(l) && Balanced(l.l);
      ShrinkLeft(cn, l.l, l.data);
      var fix := DeleteFix(Node(l.l, l.data, b + 1, r));
      Removed(fix.0, fix.1)
    case C1 =>
      // dn, the rightmost node under cn.l, is detached and takes cn's place
      // with cn's balance; the walk from bn reaches dn through cn.l
      var sub := RemoveMax(l);
      if sub.shrunk then
        ShrinkLeft(cn, sub.root, sub.dn);
        var fix := DeleteFix(Node(sub.root, sub.dn, b + 1, r));
        Removed(fix.0, fix.1)
      else
        Removed(Node(sub.root, sub.dn, b, r), false)
    case C2 =>
      // dn = cn.r moves up, keeping its right subtree; cn.l is nil
      assert Balanced(r) && Balanced(r.r);
      ShrinkRight(cn, r.r, r.data);
      var fix := DeleteFix(Node(Nil, r.data, b - 1, r.r));
      Removed(fix.0, fix.1)
    case C3 =>
      // cn has no left child, so its right subtree is a single leaf and the
      // successor is cn.r itself: the deep-successor relocation never runs
      assert false by { NoDeepSuccessor(cn); }
      Removed(Nil, false)
    case C4 =>
      // the parent drops its child link; the walk starts at the parent
      Removed(Nil, true)
  }

  /** Delete the node with key `k` below `n`: descend, relocate, walk up. A
      descent that reaches a nil child changes nothing. */
  function DeleteNode<V>(n: Node<V>, k: int): (res: Removed<V>)
    requires Balanced(n)
    ensures Balanced(res.root)
    ensures Height(res.root) + (if res.shrunk then 1 else 0) == Height(n)
  {
    match n
    case Nil => Removed(Nil, false)
    case Node(l, x, b, r) =>
      if k == x.key then DeleteAt(n)
      else if k < x.key then
        var sub := DeleteNode(l, k);
        if sub.shrunk then
          ShrinkLeft(n, sub.root, x);
          var fix := DeleteFix(Node(sub.root, x, b + 1, r));
          Removed(fix.0, fix.1)
        else
          Removed(Node(sub.root, x, b, r), false)
      else
        var sub := DeleteNode(r, k);
        if sub.shrunk then
          ShrinkRight(n, sub.root, x);
          var fix := DeleteFix(Node(l, x, b - 1, sub.root));
          Removed(fix.0, fix.1)
        else
          Removed(Node(l, x, b, sub.root), false)
  }

  /** The relocation takes exactly the matched node's element out of the
      in-order sequence. */
  lemma DeleteAtInorder<V>(cn: Node<V>)
    requires cn.Node? && Balanced(cn)
    ensures Inorder(DeleteAt(cn).root) == Inorder(cn.l) + Inorder(cn.r)
  {
    var Node(l, x, b, r) := cn;
    match CaseOf(cn)
    case C0 =>
      assert Inorder(l) == Inorder(l.l) + [l.data];
    case C1 =>
      var sub := RemoveMax(l);
      assert Inorder(DeleteAt(cn).root) == Inorder(sub.root) + [sub.dn] + Inorder(r);
    case C2 =>
      assert Inorder(r) == [r.data] + Inorder(r.r);
    case C3 =>
      // unreachable in an AVL tree
      assert false by { NoDeepSuccessor(cn); }
    case C4 =>
  }

  /** One level of `DeleteNode` on the in-order sequence: the walk's fix-ups
      do not move elements, so only the child the descent entered changes. */
  lemma DeleteNodeStep<V>(n: Node<V>, k: int)
    requires n.Node? && Balanced(n) && k != n.data.key
    ensures k < n.data.key ==>
              Inorder(DeleteNode(n, k).root) == Inorder(DeleteNode(n.l, k).root) + [n.data] + Inorder(n.r)
    ensures n.data.key < k ==>
              Inorder(DeleteNode(n, k).root) == Inorder(n.l) + [n.data] + Inorder(DeleteNode(n.r, k).root)
  {
  }

  /** After the descent, the relocation and the walk, the in-order sequence of
      a search tree is the reference removal of `k` from the old one; when `k`
      is absent that is the old sequence itself. */
  lemma {:induction false} DeleteNodeInorder<V>(n: Node<V>, k: int)
    requires Bst(n) && Balanced(n)
    ensures Inorder(DeleteNode(n, k).root) == RemoveKey(Inorder(n), k)
  {
    match n
    case Nil =>
    case Node(l, y, b, r) =>
      IncreasingSplit(Inorder(l), y, Inorder(r));
      if k == y.key {
        DeleteAtInorder(n);
        DeleteHere(Inorder(l), y, Inorder(r));
      } else if k < y.key {
        DeleteNodeStep(n, k);
        DeleteNodeInorder(l, k);
        DeleteLeft(Inorder(l), y, Inorder(r), k, Inorder(DeleteNode(l, k).root));
      } else {
        DeleteNodeStep(n, k);
        DeleteNodeInorder(r, k);
        DeleteRight(Inorder(l), y, Inorder(r), k, Inorder(DeleteNode(r, k).root));
      }
  }

  lemma DeleteHere<V>(a: seq<Elem<V>>, y: Elem<V>, b: seq<Elem<V>>)
    requires AllBelow(a, y.key)
    ensures a + b == RemoveKey(a + [y] + b, y.key)
  {
    RemoveKeyAfterPrefix(a, [y] + b, y.key);
    assert a + [y] + b == a + ([y] + b);
  }

  lemma DeleteLeft<V>(a: seq<Elem<V>>, y: Elem<V>, b: seq<Elem<V>>, k: int, a': seq<Elem<V>>)
    requires k < y.key && AllAbove(b, y.key) && a' == RemoveKey(a, k)
    ensures a' + [y] + b == RemoveKey(a + [y] + b, k)
  {
    RemoveKeyBeforeSuffix(a, [y] + b, k);
    assert a + [y] + b == a + ([y] + b);
  }

  lemma DeleteRight<V>(a: seq<Elem<V>>, y: Elem<V>, b: seq<Elem<V>>, k: int, b': seq<Elem<V>>)
    requires AllBelow(a, k) && y.key < k && b' == RemoveKey(b, k)
    ensures a + [y] + b' == RemoveKey(a + [y] + b, k)
  {
    RemoveKeyAfterPrefix(a + [y], b, k);
  }

  /** Deleting an absent key hands back the very same subtree, unshrunk. */
  lemma {:induction false} DeleteNodeAbsent<V>(n: Node<V>, k: int)
    requires Bst(n) && Balanced(n) && !HasKey(Inorder(n), k)
    ensures DeleteNode(n, k) == Removed(n, false)
  {
    match n
    case Nil =>
    case Node(l, y, b, r) =>
      IncreasingSplit(Inorder(l), y, Inorder(r));
      HasKeyConcat(Inorder(l) + [y], Inorder(r), k);
      HasKeyConcat(Inorder(l), [y], k);
      assert [y][0] == y;
      if k < y.key {
        DeleteNodeAbsent(l, k);
      } else {
        DeleteNodeAbsent(r, k);
      }
  }

  /** The deep-successor case C3 never happens: a node with no left child in
      an AVL tree has at most a leaf on its right. */
  lemma NoDeepSuccessor<V>(cn: Node<V>)
    requires cn.Node? && Balanced(cn)
    ensures CaseOf(cn) != C3
  {
    if cn.l.Nil? && cn.r.Node? {
      assert Balanced(cn.r);
      assert Height(cn.r) == 1;
    }
  }
}

=== FILE: avl_insert.dfy ===
/**
 Structural insertion (avl.go:281-368): descend to an equal node or to a nil
 child slot, hang a new leaf there, then walk upward adjusting balances.
 The upward walk is the unwinding of the recursion: each return carries the
 `grew` flag that the source's loop keeps in the choice between "propagate"
 (balance became -1 or 1) and "done" (balance became 0, or a rotation
 absorbed the growth).
 */
module Insertion {
  import opened Optional
  import opened Elements
  import opened AvlNode
  import opened Rebalance

  /** The new subtree, the element an equal key displaced, and whether the
      subtree grew one level taller. */
  datatype Inserted<V> = Inserted(root: Node<V>, displaced: Option<Elem<V>>, grew: bool)

  /** The same shape and the same balance fields, whatever the stored data. */
  ghost predicate SameShape<V>(a: Node<V>, b: Node<V>) {
    match a
    case Nil => b.Nil?
    case Node(al, _, ab, ar) =>
      b.Node? && ab == b.bal && SameShape(al, b.l) && SameShape(ar, b.r)
  }

  /** One step of the insertion walk (avl.go:334-366) at a node whose balance
      was just adjusted: 0 stops, -1 or 1 propagates, -2 or 2 rotates and
      propagates only if the rotation did not reduce the height. */
  function InsertFix<V>(n: Node<V>): (res: (Node<V>, bool))
    requires Adjusted(n)
    ensures Balanced(res.0) && Inorder(res.0) == Inorder(n)
    ensures -1 <= n.bal <= 1 ==> res.0 == n && (res.1 <==> n.bal != 0)
    ensures n.bal == -2 || n.bal == 2 ==>
              Height(res.0) + (if res.1 then 0 else 1) == Height(n)
    ensures n.bal == -2 && n.l.bal != 0 ==> !res.1
    ensures n.bal == 2 && n.r.bal != 0 ==> !res.1
    ensures res.1 ==> res.0.bal != 0
  {
    if n.bal == 0 then (n, false)
    else if n.bal == -1 || n.bal == 1 then (n, true)
    else
      RebalanceRestores(n);
      var rot := RebalanceAtNode(n);
      (rot.root, !rot.heightChange)
  }

  /** Insert `x` below `n`: overwrite the data of a node with an equal key, or
      add a leaf in the nil slot the descent ends at. The walk keeps the AVL
      invariant with exact balances, and `grew` reports exactly the one-level
      growth of the subtree. */
  function InsertNode<V>(n: Node<V>, x: Elem<V>): (res: Inserted<V>)
    requires Balanced(n)
    ensures Balanced(res.root)
    ensures Height(res.root) == Height(n) + (if res.grew then 1 else 0)
    ensures res.grew ==> res.root.bal != 0 || n.Nil?
    ensures res.displaced.Some? ==> SameShape(n, res.root) && !res.grew
  {
    match n
    case Nil =>
      Inserted(Node(Nil, x, 0, Nil), None, true)
    case Node(l, y, b, r) =>
      if x.key == y.key then
        SameShapeRefl(l);
        SameShapeRefl(r);
        Inserted(Node(l, x, b, r), Some(y), false)
      else if x.key < y.key then
        var sub := InsertNode(l, x);
        SameShapeRefl(r);
        if sub.grew then
          var fix := InsertFix(Node(sub.root, y, b - 1, r));
          Inserted(fix.0, sub.displaced, fix.1)
        else
          Inserted(Node(sub.root, y, b, r), sub.displaced, false)
      else
        var sub := InsertNode(r, x);
        SameShapeRefl(l);
        if sub.grew then
          var fix := InsertFix(Node(l, y, b + 1, sub.root));
          Inserted(fix.0, sub.displaced, fix.1)
        else
          Inserted(Node(l, y, b, sub.root), sub.displaced, false)
  }

  /** One level of `InsertNode` on the in-order sequence: the walk's fix-ups
      do not move elements, so only the child the descent entered changes. */
  lemma InsertNodeStep<V>(n: Node<V>, x: Elem<V>)
    requires n.Node? && Balanced(n) && x.key != n.data.key
    ensures x.key < n.data.key ==>
              Inorder(InsertNode(n, x).root) == Inorder(InsertNode(n.l, x).root) + [n.data] + Inorder(n.r)
    ensures n.data.key < x.key ==>
              Inorder(InsertNode(n, x).root) == Inorder(n.l) + [n.data] + Inorder(InsertNode(n.r, x).root)
  {
  }

  /** After the descent and the walk, the in-order sequence of a search tree
      is the reference insertion of `x` into the old one. */
  lemma {:induction false} InsertNodeInorder<V>(n: Node<V>, x: Elem<V>)
    requires Bst(n) && Balanced(n)
    ensures Inorder(InsertNode(n, x).root) == InsertSorted(Inorder(n), x)
  {
    match n
    case Nil =>
    case Node(l, y, b, r) =>
      IncreasingSplit(Inorder(l), y, Inorder(r));
      if x.key == y.key {
        assert Inorder(InsertNode(n, x).root) == Inorder(l) + [x] + Inorder(r);
        InsertHere(Inorder(l), y, Inorder(r), x);
      } else if x.key < y.key {
        InsertNodeStep(n, x);
        InsertNodeInorder(l, x);
        InsertLeft(Inorder(l), y, Inorder(r), x, Inorder(InsertNode(l, x).root));
      } else {
        InsertNodeStep(n, x);
        InsertNodeInorder(r, x);
        InsertRight(Inorder(l), y, Inorder(r), x, Inorder(InsertNode(r, x).root));
      }
  }

  lemma InsertHere<V>(a: seq<Elem<V>>, y: Elem<V>, b: seq<Elem<V>>, x: Elem<V>)
    requires AllBelow(a, x.key) && x.key == y.key
    ensures a + [x] + b == InsertSorted(a + [y] + b, x)
  {
    InsertSortedAfterPrefix(a, [y] + b, x);
    assert a + [y] + b == a + ([y] + b);
    assert ([y] + b)[1..] == b;
  }

  lemma InsertLeft<V>(a: seq<Elem<V>>, y: Elem<V>, b: seq<Elem<V>>, x: Elem<V>, a': seq<Elem<V>>)
    requires x.key < y.key && a' == InsertSorted(a, x)
    ensures a' + [y] + b == InsertSorted(a + [y] + b, x)
  {
    InsertSortedBeforeSuffix(a, [y] + b, x);
    assert a + [y] + b == a + ([y] + b);
  }

  lemma InsertRight<V>(a: seq<Elem<V>>, y: Elem<V>, b: seq<Elem<V>>, x: Elem<V>, b': seq<Elem<V>>)
    requires AllBelow(a, x.key) && y.key < x.key && b' == InsertSorted(b, x)
    ensures a + [y] + b' == InsertSorted(a + [y] + b, x)
  {
    InsertSortedAfterPrefix(a + [y], b, x);
  }

  /** The displaced element is the stored element with the inserted key, and
      there is one exactly when the key was present. */
  lemma {:induction false} InsertNodeDisplaced<V>(n: Node<V>, x: Elem<V>)
    requires Bst(n) && Balanced(n)
    ensures var res := InsertNode(n, x);
            && (res.displaced.Some? <==> HasKey(Inorder(n), x.key))
            && (res.displaced.Some? ==> res.displaced.value in Inorder(n) && res.displaced.value.key == x.key)
  {
    match n
    case Nil =>
    case Node(l, y, b, r) =>
      IncreasingSplit(Inorder(l), y, Inorder(r));
      HasKeyConcat(Inorder(l) + [y], Inorder(r), x.key);
      HasKeyConcat(Inorder(l), [y], x.key);
      if x.key < y.key {
        InsertNodeDisplaced(l, x);
        assert !HasKey(Inorder(r), x.key);
      } else if y.key < x.key {
        InsertNodeDisplaced(r, x);
        assert !HasKey(Inorder(l), x.key);
      }
  }

  /** Insertion keeps the search order. */
  lemma InsertNodeOrdered<V>(n: Node<V>, x: Elem<V>)
    requires Bst(n) && Balanced(n)
    ensures Bst(InsertNode(n, x).root)
  {
    InsertNodeInorder(n, x);
    InsertSortedIncreasing(Inorder(n), x);
  }

  lemma {:induction false} SameShapeRefl<V>(n: Node<V>)
    ensures SameShape(n, n)
  {
    match n
    case Nil =>
    case Node(l, _, _, r) =>
      SameShapeRefl(l);
      SameShapeRefl(r);
  }

  /** Every element of the reference insertion is `x` or an element of `s`. */
  lemma {:induction false} InsertSortedKeys<V>(s: seq<Elem<V>>, x: Elem<V>)
    ensures forall e :: e in InsertSorted(s, x) ==> e == x || e in s
  {
    if |s| > 0 && s[0].key < x.key {
      InsertSortedKeys(s[1..], x);
    }
  }

  /** The reference insertion keeps a sequence sorted. */
  lemma {:induction false} InsertSortedIncreasing<V>(s: seq<Elem<V>>, x: Elem<V>)
    requires Increasing(s)
    ensures Increasing(InsertSorted(s, x))
  {
    if |s| > 0 && s[0].key < x.key {
      var t := s[1..];
      assert Increasing(t);
      InsertSortedIncreasing(t, x);
      InsertSortedKeys(t, x);
      var u := InsertSorted(t, x);
      forall i | 0 <= i < |u| ensures s[0].key < u[i].key {
        assert u[i] in u;
      }
      assert InsertSorted(s, x) == [] + [s[0]] + u;
      IncreasingJoin([], s[0], u);
    }
  }
}

=== FILE: avl_node.dfy ===
/**
 The node structure of the threaded AVL tree (avl.go `avlNode`) and the
 structural invariants the test suite checks node by node (avl_test.go):
 search order, recorded balance = right height - left height within [-1, 1],
 and the node count. The `p` (parent) link is implicit in the datatype, so
 parent/child consistency holds by construction; the `prv`/`nxt` thread is
 kept by the enclosing `Tree` and related to `Inorder` there.
 */
module AvlNode {
  import opened Elements

  /** `Nil` is a nil child pointer. `bal` is the node's `balance` field. */
  datatype Node<V> = Nil | Node(l: Node<V>, data: Elem<V>, bal: int, r: Node<V>)

  function Max(a: int, b: int): int {
    if a < b then b else a
  }

  /** Height with nil = 0, as `treeCounts` measures depth. */
  function Height<V>(n: Node<V>): nat {
    match n
    case Nil => 0
    case Node(l, _, _, r) => 1 + Max(Height(l), Height(r))
  }

  /** Number of nodes reachable from `n` (the `size` result of `treeCounts`). */
  function Count<V>(n: Node<V>): nat {
    match n
    case Nil => 0
    case Node(l, _, _, r) => Count(l) + 1 + Count(r)
  }

  /** The in-order sequence of stored elements, computed from shape alone. */
  function Inorder<V>(n: Node<V>): seq<Elem<V>> {
    match n
    case Nil => []
    case Node(l, x, _, r) => Inorder(l) + [x] + Inorder(r)
  }

  /** Search order (`checkOrder`): keys strictly increase in order. */
  ghost predicate Bst<V>(n: Node<V>) {
    Increasing(Inorder(n))
  }

  /** AVL balance (`checkBalance`): every recorded balance is the right height
      minus the left height and lies in [-1, 1]. */
  ghost predicate Balanced<V>(n: Node<V>) {
    match n
    case Nil => true
    case Node(l, _, b, r) =>
      && Balanced(l) && Balanced(r)
      && b == Height(r) - Height(l)
      && -1 <= b <= 1
  }

  lemma {:induction false} CountIsLength<V>(n: Node<V>)
    ensures Count(n) == |Inorder(n)|
  {
    match n
    case Nil =>
    case Node(l, _, _, r) =>
      CountIsLength(l);
      CountIsLength(r);
  }

  /** The fewest nodes an AVL tree of height `h` can hold (a Fibonacci-like
      recurrence: a minimal tree has minimal subtrees of heights h-1 and h-2). */
  function MinNodes(h: nat): (m: nat)
    ensures h <= m
  {
    if h <= 1 then h else MinNodes(h - 1) + MinNodes(h - 2) + 1
  }

  lemma {:induction false} MinNodesMonotone(a: nat, b: nat)
    requires a <= b
    ensures MinNodes(a) <= MinNodes(b)
  {
    if a < b {
      MinNodesMonotone(a, b - 1);
    }
  }

  /** The logarithmic height the file's header promises: an AVL tree of
      height h holds at least `MinNodes(h)` nodes. */
  lemma {:induction false} HeightBound<V>(n: Node<V>)
    requires Balanced(n)
    ensures MinNodes(Height(n)) <= Count(n)
  {
    match n
    case Nil =>
    case Node(l, _, _, r) =>
      HeightBound(l);
      HeightBound(r);
      MinNodesStep(Height(l), Height(r), Count(l), Count(r));
  }

  /** Two AVL siblings holding at least their minimum numbers of nodes give
      their parent at least the minimum for its height. */
  lemma MinNodesStep(hl: nat, hr: nat, cl: nat, cr: nat)
    requires -1 <= hr - hl <= 1 && MinNodes(hl) <= cl && MinNodes(hr) <= cr
    ensures MinNodes(1 + Max(hl, hr)) <= cl + 1 + cr
  {
    var h := 1 + Max(hl, hr);
    if 2 <= h {
      assert MinNodes(h) == MinNodes(h - 1) + MinNodes(h - 2) + 1;
      if hl == hr {
        MinNodesMonotone(h - 2, h - 1);
      }
    }
  }

  /** Where a root-to-nil descent for a key stopped: the in-order index of the
      last node compared (`cn`) and the comparison result `r` against it. */
  datatype Probe = Probe(idx: nat, cmp: int)

  /** The descent loop shared by `lookupNode`, `Insert` and `Delete`
      (avl.go:55-78, 283-299, 380-397): stop at an equal node, or at the node
      whose child on the search side is nil. */
  function Descend<V>(n: Node<V>, key: int): Probe
    requires n.Node?
  {
    var c := Compare(key, n.data.key);
    if c == 0 then Probe(Count(n.l), 0)
    else if c < 0 then
      if n.l.Nil? then Probe(0, c) else Descend(n.l, key)
    else
      if n.r.Nil? then Probe(Count(n.l), c)
      else
        var p := Descend(n.r, key);
        Probe(Count(n.l) + 1 + p.idx, p.cmp)
  }

  /** Index `i` of `s` separates the keys below `key` from those above it, and
      `cmp` is the comparison of `key` with the element at `i` itself. */
  ghost predicate SplitsAt<V>(s: seq<Elem<V>>, key: int, i: nat, cmp: int) {
    && i < |s|
    && cmp == Compare(key, s[i].key)
    && (forall j :: 0 <= j < i ==> s[j].key < key)
    && (forall j :: i < j < |s| ==> key < s[j].key)
  }

  /** The descent stops at the in-order position that splits the stored keys
      around the search key: an equal element, or the element on whose nil side
      the key would hang. */
  lemma {:induction false} DescendSplits<V>(n: Node<V>, key: int)
    requires n.Node? && Bst(n)
    ensures SplitsAt(Inorder(n), key, Descend(n, key).idx, Descend(n, key).cmp)
  {
    var Node(l, y, b, r) := n;
    var s := Inorder(n);
    IncreasingSplit(Inorder(l), y, Inorder(r));
    CountIsLength(l);
    var p := Descend(n, key);
    var L := |Inorder(l)|;
    assert forall j :: 0 <= j < L ==> s[j] == Inorder(l)[j];
    assert s[L] == y;
    assert forall j :: L < j < |s| ==> s[j] == Inorder(r)[j - L - 1];
    if key < y.key {
      if l.Node? {
        DescendSplits(l, key);
      }
    } else if y.key < key {
      if r.Node? {
        DescendSplits(r, key);
        var q := Descend(r, key);
        assert p.idx == L + 1 + q.idx;
      }
    }
  }
}

=== FILE: avl_rebalance.dfy ===
/**
 The rotation primitive `rebalanceAtNode` (avl.go:86-267): single and double
 rotations keyed by the node's balance (-2 or 2) and its heavy child's
 balance, with the closed-form balance updates of the source and the
 `heightChange` flag that tells the caller whether the subtree got shorter
 than it was when it became unbalanced.
 */
module Rebalance {
  import opened Elements
  import opened AvlNode

  /** `Rotated(newParent, heightChange)`, or the source's `(nil, false)`. */
  datatype Rotation<V> = Rotated(root: Node<V>, heightChange: bool) | NoRotation

  /** The pointers `rebalanceAtNode` dereferences are non-nil: the heavy child,
      and for a double rotation the heavy child's inner child. */
  ghost predicate Rotatable<V>(cn: Node<V>) {
    && cn.Node?
    && (cn.bal == -2 ==> cn.l.Node? && (cn.l.bal == 1 ==> cn.l.r.Node?))
    && (cn.bal == 2 ==> cn.r.Node? && (cn.r.bal == -1 ==> cn.r.l.Node?))
  }

  function RebalanceAtNode<V>(cn: Node<V>): (res: Rotation<V>)
    requires Rotatable(cn)
    ensures res.Rotated? <==>
              || (cn.bal == -2 && -1 <= cn.l.bal <= 1)
              || (cn.bal == 2 && -1 <= cn.r.bal <= 1)
    ensures res.Rotated? ==> Inorder(res.root) == Inorder(cn)
  {
    if cn.bal == -2 then RotateFromLeft(cn)
    else if cn.bal == 2 then RotateFromRight(cn)
    else NoRotation
  }

  /** The left-heavy half of `rebalanceAtNode` (balance -2). */
  function RotateFromLeft<V>(cn: Node<V>): (res: Rotation<V>)
    requires Rotatable(cn) && cn.bal == -2
    ensures res.Rotated? <==> -1 <= cn.l.bal <= 1
    ensures res.Rotated? ==> Inorder(res.root) == Inorder(cn)
  {
    var Node(a, x, _, c) := cn;
    var Node(ll, y, lb, lr) := a;
    if lb == -1 then
      // single right rotation: ln becomes the subtree root
      Rotated(Node(ll, y, 0, Node(lr, x, 0, c)), true)
    else if lb == 0 then
      Rotated(Node(ll, y, 1, Node(lr, x, -1, c)), false)
    else if lb == 1 then
      // left-right double rotation: lrn becomes the subtree root
      var Node(lrl, z, lrb, lrr) := lr;
      assert Inorder(a) == Inorder(ll) + [y] + (Inorder(lrl) + [z] + Inorder(lrr));
      assert Inorder(cn) == (Inorder(ll) + [y] + Inorder(lrl)) + [z] + (Inorder(lrr) + [x] + Inorder(c));
      Rotated(Node(Node(ll, y, if lrb == 1 then -1 else 0, lrl),
                   z, 0,
                   Node(lrr, x, if lrb == -1 then 1 else 0, c)), true)
    else
      NoRotation
  }

  /** The right-heavy half of `rebalanceAtNode` (balance 2). */
  function RotateFromRight<V>(cn: Node<V>): (res: Rotation<V>)
    requires Rotatable(cn) && cn.bal == 2
    ensures res.Rotated? <==> -1 <= cn.r.bal <= 1
    ensures res.Rotated? ==> Inorder(res.root) == Inorder(cn)
  {
    var Node(a, x, _, c) := cn;
    var Node(rl, y, rb, rr) := c;
    if rb == -1 then
      // right-left double rotation: rln becomes the subtree root
      var Node(rll, z, rlb, rlr) := rl;
      assert Inorder(c) == (Inorder(rll) + [z] + Inorder(rlr)) + [y] + Inorder(rr);
      assert Inorder(cn) == (Inorder(a) + [x] + Inorder(rll)) + [z] + (Inorder(rlr) + [y] + Inorder(rr));
      Rotated(Node(Node(a, x, if rlb == 1 then -1 else 0, rll),
                   z, 0,
                   Node(rlr, y, if rlb == -1 then 1 else 0, rr)), true)
    else if rb == 0 then
      Rotated(Node(Node(a, x, 1, rl), y, -1, rr), false)
    else if rb == 1 then
      // single left rotation: rn becomes the subtree root
      Rotated(Node(Node(a, x, 0, rl), y, 0, rr), true)
    else
      NoRotation
  }

  /** A node whose children are AVL trees with exact balances and whose own
      balance field has just been adjusted to the height difference, which is
      at most two. This is what each step of both upward walks looks at. */
  ghost predicate Adjusted<V>(n: Node<V>) {
    && n.Node? && Balanced(n.l) && Balanced(n.r)
    && n.bal == Height(n.r) - Height(n.l)
    && -2 <= n.bal <= 2
  }

  /** A node that is out of balance by two over AVL subtrees whose balance
      fields are exact. This is the shape the insertion and deletion walks hand
      to `rebalanceAtNode`. */
  ghost predicate OutOfBalance<V>(cn: Node<V>) {
    && cn.Node? && Balanced(cn.l) && Balanced(cn.r)
    && cn.bal == Height(cn.r) - Height(cn.l)
    && (cn.bal == -2 || cn.bal == 2)
  }

  /** Rotating a node that is out of balance by two restores the AVL invariant
      with exact balances. The height drops by one (`heightChange`) unless the
      heavy child was balanced, in which case the new root leans towards the
      old node by one and the old node leans the other way by one. */
  lemma RebalanceRestores<V>(cn: Node<V>)
    requires OutOfBalance(cn)
    ensures Rotatable(cn)
    ensures RebalanceAtNode(cn).Rotated?
    ensures Balanced(RebalanceAtNode(cn).root)
    ensures var res := RebalanceAtNode(cn);
            Height(res.root) == Height(cn) - (if res.heightChange then 1 else 0)
    ensures var res := RebalanceAtNode(cn);
            var heavy := if cn.bal < 0 then cn.l else cn.r;
            res.heightChange <==> heavy.bal != 0
    ensures var res := RebalanceAtNode(cn);
            res.heightChange ==> res.root.bal == 0
    ensures var res := RebalanceAtNode(cn);
            !res.heightChange ==>
              && res.root.bal == -cn.bal / 2
              && (if cn.bal < 0 then res.root.r.bal else res.root.l.bal) == cn.bal / 2
  {
    if cn.bal == -2 {
      RestoresFromLeft(cn);
    } else {
      RestoresFromRight(cn);
    }
  }

  lemma RestoresFromLeft<V>(cn: Node<V>)
    requires OutOfBalance(cn) && cn.bal == -2
    ensures Rotatable(cn)
    ensures var res := RotateFromLeft(cn);
            && res.Rotated? && Balanced(res.root)
            && Height(res.root) == Height(cn) - (if res.heightChange then 1 else 0)
            && (res.heightChange <==> cn.l.bal != 0)
            && (res.heightChange ==> res.root.bal == 0)
            && (!res.heightChange ==> res.root.bal == 1 && res.root.r.bal == -1)
  {
    var Node(a, x, b, c) := cn;
    var Node(ll, y, lb, lr) := a;
    if lb == 1 {
      var Node(lrl, z, lrb, lrr) := lr;
      var h := Height(c);
      assert Balanced(lr) && lrb == Height(lrr) - Height(lrl);
      assert Height(ll) == h && Height(lr) == h + 1;
      assert Height(lrl) + (if lrb == 1 then 1 else 0) == h;
      assert Height(lrr) + (if lrb == -1 then 1 else 0) == h;
    }
  }

  lemma RestoresFromRight<V>(cn: Node<V>)
    requires OutOfBalance(cn) && cn.bal == 2
    ensures Rotatable(cn)
    ensures var res := RotateFromRight(cn);
            && res.Rotated? && Balanced(res.root)
            && Height(res.root) == Height(cn) - (if res.heightChange then 1 else 0)
            && (res.heightChange <==> cn.r.bal != 0)
            && (res.heightChange ==> res.root.bal == 0)
            && (!res.heightChange ==> res.root.bal == -1 && res.root.l.bal == 1)
  {
    var Node(a, x, b, c) := cn;
    var Node(rl, y, rb, rr) := c;
    if rb == -1 {
      var Node(rll, z, rlb, rlr) := rl;
      var h := Height(a);
      assert Balanced(rl) && rlb == Height(rlr) - Height(rll);
      assert Height(rr) == h && Height(rl) == h + 1;
      assert Height(rll) + (if rlb == 1 then 1 else 0) == h;
      assert Height(rlr) + (if rlb == -1 then 1 else 0) == h;
    }
  }
}

=== FILE: avl_scenarios.dfy ===
/**
 The insert/delete run of `TestAvl` (avl_test.go:242-295) and small worked
 examples on the seven-key tree built from 5, 3, 8, 1, 4, 7, 9. Elements are
 plain integer keys, as `ComparableInt` is in the tests.
 */
module Scenarios {
  import opened Optional
  import opened Elements
  import opened AvlNode
  import opened Insertion
  import opened AvlTree
  import opened Cursors
  import Deletion

  /** A `ComparableInt`: the key is the whole element. */
  function Int(k: int): Elem<()> {
    Elem(k, ())
  }

  /** The keys `[0, n)` in order, as elements. */
  function Ascending(n: nat): (s: seq<Elem<()>>)
    ensures |s| == n && forall j :: 0 <= j < n ==> s[j] == Int(j)
  {
    seq(n, j => Int(j))
  }

  lemma AscendingKeys(n: nat, k: int)
    ensures HasKey(Ascending(n), k) <==> 0 <= k < n
  {
    if 0 <= k < n {
      assert Ascending(n)[k].key == k;
    }
  }

  /** The insert phase of `TestAvl`: keys 0 .. n-1 in increasing order. Every
      insert returns nil and leaves a valid tree. */
  method InsertAscending(n: nat) returns (t: Tree<()>, allNew: bool)
    ensures Valid(t) && t.thread == Ascending(n) && t.size == n
    ensures allNew
  {
    t := EmptyTree();
    allNew := true;
    var i := 0;
    while i < n
      invariant i <= n && Valid(t) && t.thread == Ascending(i)
      invariant allNew
    {
      var x := Int(i);
      AscendingStep(i);
      InsertAbove(t, x);
      var res := Insert(t, x);
      allNew := allNew && res.1.None?;
      t := res.0;
      i := i + 1;
    }
  }

  lemma AscendingStep(i: nat)
    ensures AllBelow(Ascending(i), i)
    ensures Ascending(i) + [Int(i)] == Ascending(i + 1)
  {
  }

  /** The keys stored are those below n not yet deleted. */
  ghost predicate Remaining(t: Tree<()>, n: nat, deleted: set<int>) {
    forall k :: HasKey(t.thread, k) <==> 0 <= k < n && k !in deleted
  }

  /** One iteration of the delete phase: the chain loses exactly key `x`, and
      `Delete` returns `x` the first time and nothing afterwards. */
  lemma DeleteStep(t: Tree<()>, x: int, n: nat, deleted: set<int>)
    requires Valid(t) && 0 <= x < n && Remaining(t, n, deleted)
    ensures var r := Delete(t, x);
            && Valid(r.0)
            && Remaining(r.0, n, deleted + {x})
            && (x in deleted ==> r.1.None? && r.0.size == t.size && deleted + {x} == deleted)
            && (x !in deleted ==> r.1 == Some(Int(x)) && r.0.size + 1 == t.size && |deleted + {x}| == |deleted| + 1)
  {
    DeleteValid(t, x);
    DeleteRemaining(t, x, n, deleted);
    DeleteFoundOnce(t, x, n, deleted);
    AddKey(deleted, x);
  }

  lemma AddKey(d: set<int>, x: int)
    ensures x in d ==> d + {x} == d
    ensures x !in d ==> |d + {x}| == |d| + 1
  {
  }

  /** `Delete` finds the key exactly when it was not deleted before, and then
      returns it. */
  lemma DeleteFoundOnce(t: Tree<()>, x: int, n: nat, deleted: set<int>)
    requires Valid(t) && 0 <= x < n && Remaining(t, n, deleted)
    ensures x in deleted ==> Delete(t, x).1.None?
    ensures x !in deleted ==> Delete(t, x).1 == Some(Int(x))
  {
    DeleteValid(t, x);
    if x !in deleted {
      assert HasKey(t.thread, x);
      FoundIsInt(Delete(t, x).1.value, x);
    }
  }

  lemma DeleteRemaining(t: Tree<()>, x: int, n: nat, deleted: set<int>)
    requires Valid(t) && Remaining(t, n, deleted)
    ensures Remaining(Delete(t, x).0, n, deleted + {x})
  {
    var t' := Delete(t, x).0;
    forall k ensures HasKey(t'.thread, k) <==> 0 <= k < n && k !in deleted + {x} {
      DeleteKeys(t, x, k);
    }
  }

  /** A `ComparableInt` is determined by its key. */
  lemma FoundIsInt(e: Elem<()>, x: int)
    requires e.key == x
    ensures e == Int(x)
  {
    assert e.val == ();
  }

  /** The delete phase of `TestAvl`, with the random keys as a parameter:
      deleting a key for the first time returns that key, deleting it again
      reports not-found, the tree stays valid throughout, and the final size
      is the number inserted minus the number of distinct keys deleted. */
  method DeletePhase(n: nat, keys: seq<int>) returns (t: Tree<()>, dcount: nat, ok: bool)
    requires forall j :: 0 <= j < |keys| ==> 0 <= keys[j] < n
    ensures Valid(t) && ok
    ensures dcount == |set j | 0 <= j < |keys| :: keys[j]|
    ensures t.size == n - dcount
  {
    var allNew;
    t, allNew := InsertAscending(n);
    forall k ensures HasKey(t.thread, k) <==> 0 <= k < n {
      AscendingKeys(n, k);
    }
    dcount := 0;
    ok := true;
    var deleted: set<int> := {};
    var i := 0;
    while i < |keys|
      invariant i <= |keys| && Valid(t) && ok
      invariant deleted == set j | 0 <= j < i :: keys[j]
      invariant dcount == |deleted| && t.size + dcount == n
      invariant Remaining(t, n, deleted)
    {
      var x := keys[i];
      DeleteStep(t, x, n, deleted);
      var res := Delete(t, x);
      if x in deleted {
        ok := ok && res.1.None?;
      } else {
        dcount := dcount + 1;
        ok := ok && res.1 == Some(Int(x));
      }
      SeenStep(keys, i);
      deleted := deleted + {x};
      t := res.0;
      i := i + 1;
    }
  }

  /** The keys seen among the first i + 1 are those among the first i and
      key i. */
  lemma SeenStep(keys: seq<int>, i: nat)
    requires i < |keys|
    ensures (set j | 0 <= j < i + 1 :: keys[j]) == (set j | 0 <= j < i :: keys[j]) + {keys[i]}
  {
  }

  /** A one-node subtree. */
  function Leaf<V>(x: Elem<V>): Node<V> {
    Node(Nil, x, 0, Nil)
  }

  /** `e` holds elements with keys 1, 3, 4, 5, 7, 8, 9, in that order. */
  ghost predicate SevenKeys<V>(e: seq<Elem<V>>) {
    && |e| == 7
    && e[0].key == 1 && e[1].key == 3 && e[2].key == 4 && e[3].key == 5
    && e[4].key == 7 && e[5].key == 8 && e[6].key == 9
  }

  /** The root after the first `k` insertions of keys 5, 3, 8, 1, 4, 7, 9. */
  function Stage<V>(k: nat, e: seq<Elem<V>>): Node<V>
    requires |e| == 7
  {
    if k == 0 then Nil
    else if k == 1 then Leaf(e[3])
    else if k == 2 then Node(Leaf(e[1]), e[3], -1, Nil)
    else if k == 3 then Node(Leaf(e[1]), e[3], 0, Leaf(e[5]))
    else if k == 4 then Node(Node(Leaf(e[0]), e[1], -1, Nil), e[3], -1, Leaf(e[5]))
    else if k == 5 then Node(Node(Leaf(e[0]), e[1], 0, Leaf(e[2])), e[3], -1, Leaf(e[5]))
    else if k == 6 then Node(Node(Leaf(e[0]), e[1], 0, Leaf(e[2])), e[3], 0, Node(Leaf(e[4]), e[5], -1, Nil))
    else Node(Node(Leaf(e[0]), e[1], 0, Leaf(e[2])), e[3], 0, Node(Leaf(e[4]), e[5], 0, Leaf(e[6])))
  }

  lemma LeafFacts<V>(x: Elem<V>)
    ensures Balanced(Leaf(x)) && Height(Leaf(x)) == 1
  {
  }

  lemma PerfectFacts<V>(a: Elem<V>, b: Elem<V>, c: Elem<V>)
    ensures Balanced(Node(Leaf(a), b, 0, Leaf(c))) && Height(Node(Leaf(a), b, 0, Leaf(c))) == 2
  {
    LeafFacts(a);
    LeafFacts(c);
  }

  lemma BelowLeaf<V>(y: Elem<V>, x: Elem<V>)
    requires x.key < y.key
    ensures InsertNode(Leaf(y), x) == Inserted(Node(Leaf(x), y, -1, Nil), None, true)
  {
  }

  lemma AboveLeaf<V>(y: Elem<V>, x: Elem<V>)
    requires y.key < x.key
    ensures InsertNode(Leaf(y), x) == Inserted(Node(Nil, y, 1, Leaf(x)), None, true)
  {
  }

  /** Each insertion of the example lands where `Stage` says, with no
      rotation. */
  lemma StageSteps<V>(e: seq<Elem<V>>)
    requires SevenKeys(e)
    ensures InsertNode(Stage(0, e), e[3]).root == Stage(1, e)
    ensures Balanced(Stage(1, e)) && InsertNode(Stage(1, e), e[1]).root == Stage(2, e)
    ensures Balanced(Stage(2, e)) && InsertNode(Stage(2, e), e[5]).root == Stage(3, e)
    ensures Balanced(Stage(3, e)) && InsertNode(Stage(3, e), e[0]).root == Stage(4, e)
    ensures Balanced(Stage(4, e)) && InsertNode(Stage(4, e), e[2]).root == Stage(5, e)
    ensures Balanced(Stage(5, e)) && InsertNode(Stage(5, e), e[4]).root == Stage(6, e)
    ensures Balanced(Stage(6, e)) && InsertNode(Stage(6, e), e[6]).root == Stage(7, e)
  {
    Stage2(e);
    Stage3(e);
    Stage4(e);
    Stage5(e);
    Stage6(e);
    Stage7(e);
  }

  lemma Stage2<V>(e: seq<Elem<V>>)
    requires SevenKeys(e)
    ensures Balanced(Stage(1, e)) && InsertNode(Stage(1, e), e[1]).root == Stage(2, e)
  {
    BelowLeaf(e[3], e[1]);
  }

  lemma Stage3<V>(e: seq<Elem<V>>)
    requires SevenKeys(e)
    ensures Balanced(Stage(2, e)) && InsertNode(Stage(2, e), e[5]).root == Stage(3, e)
  {
    LeafFacts(e[1]);
  }

  lemma Stage4<V>(e: seq<Elem<V>>)
    requires SevenKeys(e)
    ensures Balanced(Stage(3, e)) && InsertNode(Stage(3, e), e[0]).root == Stage(4, e)
  {
    BelowLeaf(e[1], e[0]);
  }

  lemma Stage5<V>(e: seq<Elem<V>>)
    requires SevenKeys(e)
    ensures Balanced(Stage(4, e)) && InsertNode(Stage(4, e), e[2]).root == Stage(5, e)
  {
    LeafFacts(e[0]);
    LeafFacts(e[5]);
    var l := Node(Leaf(e[0]), e[1], -1, Nil);
    assert Balanced(l) && Height(l) == 2;
    assert InsertNode(l, e[2]) == Inserted(Node(Leaf(e[0]), e[1], 0, Leaf(e[2])), None, false);
  }

  lemma Stage6<V>(e: seq<Elem<V>>)
    requires SevenKeys(e)
    ensures Balanced(Stage(5, e)) && InsertNode(Stage(5, e), e[4]).root == Stage(6, e)
  {
    BelowLeaf(e[5], e[4]);
    PerfectFacts(e[0], e[1], e[2]);
    LeafFacts(e[5]);
  }

  lemma Stage7<V>(e: seq<Elem<V>>)
    requires SevenKeys(e)
    ensures Balanced(Stage(6, e)) && InsertNode(Stage(6, e), e[6]).root == Stage(7, e)
  {
    PerfectFacts(e[0], e[1], e[2]);
    LeafFacts(e[4]);
    AboveLeaf(e[5], e[6]);
    var r := Node(Leaf(e[4]), e[5], -1, Nil);
    assert Balanced(r) && Height(r) == 2;
    assert InsertNode(r, e[6]) == Inserted(Node(Leaf(e[4]), e[5], 0, Leaf(e[6])), None, false);
  }

  /** Inserting keys 5, 3, 8, 1, 4, 7, 9 in that order never rotates and
      builds the perfect tree of height 3, whose forward traversal is
      1, 3, 4, 5, 7, 8, 9. */
  method BuildSeven<V>(e: seq<Elem<V>>) returns (t: Tree<V>)
    requires SevenKeys(e)
    ensures Valid(t) && t.thread == e && t.size == 7
    ensures t.root == Stage(7, e) && Height(t.root) == 3
  {
    StageSteps(e);
    t := EmptyTree();
    t := InsertStep(t, e[3], Stage(1, e));
    t := InsertStep(t, e[1], Stage(2, e));
    t := InsertStep(t, e[5], Stage(3, e));
    t := InsertStep(t, e[0], Stage(4, e));
    t := InsertStep(t, e[2], Stage(5, e));
    t := InsertStep(t, e[4], Stage(6, e));
    t := InsertStep(t, e[6], Stage(7, e));
    PerfectFacts(e[0], e[1], e[2]);
    PerfectFacts(e[4], e[5], e[6]);
    SevenInorder(e);
  }

  lemma SevenInorder<V>(e: seq<Elem<V>>)
    requires |e| == 7
    ensures Inorder(Stage(7, e)) == e
  {
    assert Inorder(Leaf(e[0])) == [e[0]];
    assert Inorder(Leaf(e[2])) == [e[2]];
    assert Inorder(Leaf(e[4])) == [e[4]];
    assert Inorder(Leaf(e[6])) == [e[6]];
    assert Inorder(Stage(7, e)) == [e[0], e[1], e[2]] + [e[3]] + [e[4], e[5], e[6]];
  }

  /** One insertion of the worked example, checked against the expected root. */
  method InsertStep<V>(t: Tree<V>, x: Elem<V>, expected: Node<V>) returns (t': Tree<V>)
    requires Valid(t) && InsertNode(t.root, x).root == expected
    ensures Valid(t') && t'.root == expected
  {
    InsertValid(t, x);
    InsertThread(t, x);
    t' := Insert(t, x).0;
  }

  /** Lookups on the seven-key tree: GTE 6 finds 7 inexactly, LTE 6 finds 5
      inexactly, GTE 7 finds 7 exactly. */
  lemma SevenLookups<V>(t: Tree<V>)
    requires Valid(t) && SevenKeys(t.thread)
    ensures Lookup(t, GTE, 6) == (Some(t.thread[4]), false)
    ensures Lookup(t, LTE, 6) == (Some(t.thread[3]), false)
    ensures Lookup(t, GTE, 7) == (Some(t.thread[4]), true)
  {
    var e := t.thread;
    assert !HasKey(e, 6);
    assert HasKey(e, 7) by {
      assert e[4].key == 7;
    }
    GteAt(e, 6, 4, LookupIndex(t, GTE, 6).0);
    LteAt(e, 6, 3, LookupIndex(t, LTE, 6).0);
    GteAt(e, 7, 4, LookupIndex(t, GTE, 7).0);
  }

  /** In a sorted chain, the only GTE answer is the first element at or above
      the key. */
  lemma GteAt<V>(s: seq<Elem<V>>, key: int, i: nat, r: Option<nat>)
    requires Increasing(s) && i < |s| && key <= s[i].key && (i == 0 || s[i - 1].key < key)
    requires IsLookup(s, GTE, key, r)
    ensures r == Some(i)
  {
  }

  /** In a sorted chain, the only LTE answer is the last element at or below
      the key. */
  lemma LteAt<V>(s: seq<Elem<V>>, key: int, i: nat, r: Option<nat>)
    requires Increasing(s) && i < |s| && s[i].key <= key && (i == |s| - 1 || key < s[i + 1].key)
    requires IsLookup(s, LTE, key, r)
    ensures r == Some(i)
  {
  }

  /** Deleting 5 from any valid tree holding the seven keys returns it and
      leaves a valid tree whose chain is 1, 3, 4, 7, 8, 9. In the tree the
      seven inserts build, 5 is the root and its predecessor 4 lies below its
      left child, so the relocation is case C1. */
  lemma SevenDelete<V>(t: Tree<V>)
    requires Valid(t) && SevenKeys(t.thread)
    ensures t.root == Stage(7, t.thread) ==> Deletion.CaseOf(t.root) == Deletion.C1
    ensures Valid(Delete(t, 5).0)
    ensures Delete(t, 5).0.thread == t.thread[..3] + t.thread[4..]
    ensures Delete(t, 5).1 == Some(t.thread[3])
  {
    DeleteValid(t, 5);
    RemoveKeyAt(t.thread, 3);
    assert t.thread[3] in t.thread;
  }

  /** A GTE cursor for 4 delivers 4 and then 5; `Prev` then delivers 5 again,
      the value `Next` just returned, not 4. */
  lemma SevenCursor<V>(t: Tree<V>)
    requires Valid(t) && SevenKeys(t.thread)
    ensures var c := GetCursor(t, GTE, 4).0;
            var n1 := Next(t, c);
            var n2 := Next(t, n1.c);
            && n1.val == Some(t.thread[2])
            && n2.val == Some(t.thread[3])
            && Prev(t, n2.c).val == Some(t.thread[3])
  {
  }
}

=== FILE: avl_tree.dfy ===
/**
 The `Tree` struct of avl.go and its public operations `Size`, `Lookup`,
 `Insert` and `Delete`. The `prv`/`nxt` chain is the sequence `thread`: the
 predecessor of element `i` is element `i - 1` and its successor element
 `i + 1`. `head` and `tail` are kept as separate fields because the source
 keeps them as separate pointers, and they can go stale.
 */
module AvlTree {
  import opened Optional
  import opened Elements
  import opened AvlNode
  import opened Insertion
  import opened Deletion

  /** `size`, `root`, `head`, `tail`, and the element chain. */
  datatype Tree<V> = Tree(size: nat, root: Node<V>, head: Option<Elem<V>>, tail: Option<Elem<V>>,
                          thread: seq<Elem<V>>)

  /** The whole-tree invariant that `checkTree` verifies (avl_test.go:204-210
      with checkOrder, checkLinks, checkBalance): search order, exact AVL
      balances, the chain is the in-order sequence of the nodes, the size is the
      node count, and `head`/`tail` are the first and last elements of a
      non-empty tree. On an empty tree `head` and `tail` are unconstrained:
      deleting the last element leaves them pointing at it. */
  ghost predicate Valid<V>(t: Tree<V>) {
    && Bst(t.root) && Balanced(t.root)
    && t.thread == Inorder(t.root)
    && t.size == |t.thread|
    && (|t.thread| > 0 ==> t.head == Some(t.thread[0]) && t.tail == Some(t.thread[|t.thread| - 1]))
  }

  /** The zero value `&Tree{}`. */
  function EmptyTree<V>(): (t: Tree<V>)
    ensures Valid(t) && t.size == 0 && t.head.None? && t.tail.None?
  {
    Tree(0, Nil, None, None, [])
  }

  /** `Size` reports the stored counter, which is the number of nodes. */
  function Size<V>(t: Tree<V>): (n: nat)
    requires Valid(t)
    ensures n == Count(t.root)
  {
    CountIsLength(t.root);
    t.size
  }

  /** The two lookup directions of lookup.go. */
  datatype LookupType = GTE | LTE

  /** Index `r` is what a lookup of `key` in direction `lt` should find in `s`:
      for GTE the first element not below `key`, for LTE the last element not
      above it, and nothing when no such element exists. */
  ghost predicate IsLookup<V>(s: seq<Elem<V>>, lt: LookupType, key: int, r: Option<nat>) {
    match r
    case None =>
      if lt == GTE then AllBelow(s, key) else AllAbove(s, key)
    case Some(i) =>
      && i < |s|
      && (if lt == GTE then key <= s[i].key && AllBelow(s[..i], key)
          else s[i].key <= key && AllAbove(s[i + 1..], key))
  }

  /** The descent of a non-empty search tree lands on the in-order position
      that splits the keys around `key`, and compares equal exactly when the
      key is stored. */
  lemma ProbeFacts<V>(t: Tree<V>, key: int)
    requires Valid(t) && t.root.Node?
    ensures var p := Descend(t.root, key);
            && SplitsAt(t.thread, key, p.idx, p.cmp)
            && (p.cmp == 0 <==> HasKey(t.thread, key))
  {
    DescendSplits(t.root, key);
    var p := Descend(t.root, key);
    if HasKey(t.thread, key) {
      var j :| 0 <= j < |t.thread| && t.thread[j].key == key;
      assert j == p.idx;
    }
  }

  /** `lookupNode` (avl.go:51-79), with the node as an index into the chain:
      an equal node, else the node where the descent stopped or its chain
      neighbour on the requested side (`cn.prv` for LTE, `cn.nxt` for GTE). */
  function LookupIndex<V>(t: Tree<V>, lt: LookupType, key: int): (res: (Option<nat>, bool))
    requires Valid(t)
    ensures IsLookup(t.thread, lt, key, res.0)
    ensures res.1 <==> HasKey(t.thread, key)
    ensures res.1 ==> res.0.Some? && t.thread[res.0.value].key == key
  {
    if t.root.Nil? then (None, false)
    else
      ProbeFacts(t, key);
      var p := Descend(t.root, key);
      SplitResult(t.thread, lt, key, p.idx, p.cmp)
  }

  /** The choice `lookupNode` makes where the descent stopped: the node on an
      equal key, else the node itself or its chain neighbour on the requested
      side (`cn.prv` for LTE, `cn.nxt` for GTE). */
  function SplitResult<V>(s: seq<Elem<V>>, lt: LookupType, key: int, i: nat, cmp: int): (res: (Option<nat>, bool))
    requires SplitsAt(s, key, i, cmp)
    ensures IsLookup(s, lt, key, res.0)
    ensures res.1 <==> cmp == 0
    ensures res.1 ==> res.0 == Some(i)
  {
    SplitLookup(s, key, i, cmp);
    if cmp == 0 then (Some(i), true)
    else if cmp < 0 then
      if lt == GTE then (Some(i), false)
      else if i == 0 then (None, false)
      else (Some(i - 1), false)
    else
      if lt == LTE then (Some(i), false)
      else if i + 1 < |s| then (Some(i + 1), false)
      else (None, false)
  }

  /** The lookup results the descent's stopping point offers are the right
      ones: the split element itself, or its neighbour on the requested side. */
  lemma SplitLookup<V>(s: seq<Elem<V>>, key: int, i: nat, cmp: int)
    requires SplitsAt(s, key, i, cmp)
    ensures cmp == 0 ==> IsLookup(s, GTE, key, Some(i)) && IsLookup(s, LTE, key, Some(i))
    ensures cmp < 0 ==> IsLookup(s, GTE, key, Some(i))
    ensures cmp < 0 ==> IsLookup(s, LTE, key, if i == 0 then None else Some(i - 1))
    ensures cmp > 0 ==> IsLookup(s, LTE, key, Some(i))
    ensures cmp > 0 ==> IsLookup(s, GTE, key, if i + 1 < |s| then Some(i + 1) else None)
  {
    assert forall j :: 0 <= j < i ==> s[..i][j] == s[j];
    assert forall j :: i + 1 <= j < |s| ==> s[i + 1..][j - i - 1] == s[j];
    if cmp < 0 && i > 0 {
      assert forall j :: i <= j < |s| ==> s[i..][j - i] == s[j];
    }
    if cmp > 0 && i + 1 < |s| {
      assert forall j :: 0 <= j < i + 1 ==> s[..i + 1][j] == s[j];
    }
  }

  /** `Lookup` (avl.go:43-49): the element found and whether it is an exact
      match. An exact match carries the key; otherwise GTE yields the least
      stored element above the key and LTE the greatest one below it, and
      nothing when no stored element lies on that side. */
  function Lookup<V>(t: Tree<V>, lt: LookupType, key: int): (res: (Option<Elem<V>>, bool))
    requires Valid(t)
    ensures res.1 <==> HasKey(t.thread, key)
    ensures res.1 ==> res.0.Some? && res.0.value.key == key
    ensures res.0.Some? ==> res.0.value in t.thread
    ensures lt == GTE && res.0.Some? ==>
              key <= res.0.value.key && forall e :: e in t.thread && key <= e.key ==> res.0.value.key <= e.key
    ensures lt == LTE && res.0.Some? ==>
              res.0.value.key <= key && forall e :: e in t.thread && e.key <= key ==> e.key <= res.0.value.key
    ensures res.0.None? ==>
              forall e :: e in t.thread ==> if lt == GTE then e.key < key else key < e.key
  {
    var (idx, exact) := LookupIndex(t, lt, key);
    match idx
    case None => (None, exact)
    case Some(i) =>
      LookupIndexIsExtreme(t.thread, lt, key, i);
      (Some(t.thread[i]), exact)
  }

  /** In a sorted sequence the element a lookup index names is the nearest on
      its side. */
  lemma LookupIndexIsExtreme<V>(s: seq<Elem<V>>, lt: LookupType, key: int, i: nat)
    requires Increasing(s) && IsLookup(s, lt, key, Some(i))
    ensures lt == GTE ==> forall e :: e in s && key <= e.key ==> s[i].key <= e.key
    ensures lt == LTE ==> forall e :: e in s && e.key <= key ==> e.key <= s[i].key
  {
    forall e | e in s
      ensures lt == GTE && key <= e.key ==> s[i].key <= e.key
      ensures lt == LTE && e.key <= key ==> e.key <= s[i].key
    {
      var j :| 0 <= j < |s| && s[j] == e;
      if lt == GTE && j < i {
        assert s[..i][j] == e;
      }
      if lt == LTE && i < j {
        assert s[i + 1..][j - i - 1] == e;
      }
    }
  }

  /** `Insert` (avl.go:271-369): an empty tree gets a single root; an equal
      element is overwritten in place and returned; otherwise a new leaf is
      hung below the node the descent stopped at and spliced into the chain
      just before it (left child) or just after it (right child), moving
      `head` or `tail` when that node was the first or last. */
  function Insert<V>(t: Tree<V>, x: Elem<V>): (res: (Tree<V>, Option<Elem<V>>))
    requires Valid(t)
    ensures res.1.Some? ==> res.0.size == t.size && res.1.value.key == x.key
    ensures res.1.None? ==> res.0.size == t.size + 1
  {
    if t.root.Nil? then
      (Tree(t.size + 1, Node(Nil, x, 0, Nil), Some(x), Some(x), [x]), None)
    else
      ProbeFacts(t, x.key);
      var p := Descend(t.root, x.key);
      var s := t.thread;
      var i := p.idx;
      var root := InsertNode(t.root, x).root;
      if p.cmp == 0 then
        var head := if i == 0 then Some(x) else t.head;
        var tail := if i == |s| - 1 then Some(x) else t.tail;
        (Tree(t.size, root, head, tail, Splice(s, i, p.cmp, x)), Some(s[i]))
      else if p.cmp < 0 then
        var head := if i == 0 then Some(x) else t.head;
        (Tree(t.size + 1, root, head, t.tail, Splice(s, i, p.cmp, x)), None)
      else
        var tail := if i == |s| - 1 then Some(x) else t.tail;
        (Tree(t.size + 1, root, t.head, tail, Splice(s, i, p.cmp, x)), None)
  }

  /** The chain splice of `Insert` (avl.go:305-332) around the node the
      descent stopped at: overwrite it, or link `x` in before it (left child)
      or after it (right child). */
  function Splice<V>(s: seq<Elem<V>>, i: nat, cmp: int, x: Elem<V>): seq<Elem<V>>
    requires i < |s|
  {
    if cmp == 0 then s[i := x]
    else if cmp < 0 then s[..i] + [x] + s[i..]
    else s[..i + 1] + [x] + s[i + 1..]
  }

  /** The splice positions chosen from the descent are the sorted positions. */
  lemma SpliceSorted<V>(s: seq<Elem<V>>, i: nat, cmp: int, x: Elem<V>)
    requires Increasing(s) && SplitsAt(s, x.key, i, cmp)
    ensures Splice(s, i, cmp, x) == InsertSorted(s, x)
  {
    if cmp == 0 {
      InsertSortedReplaces(s, i, x);
    } else if cmp < 0 {
      InsertSortedAt(s, i, x);
    } else {
      assert s[..i + 1] == s[..i] + [s[i]];
      InsertSortedAt(s, i + 1, x);
    }
  }

  /** The chain after `Insert` is the reference insertion into the old chain. */
  lemma InsertThread<V>(t: Tree<V>, x: Elem<V>)
    requires Valid(t)
    ensures Insert(t, x).0.thread == InsertSorted(t.thread, x)
    ensures Insert(t, x).0.root == InsertNode(t.root, x).root
  {
    if t.root.Node? {
      ProbeFacts(t, x.key);
      var p := Descend(t.root, x.key);
      SpliceSorted(t.thread, p.idx, p.cmp, x);
    }
  }

  /** `Insert` keeps every invariant `checkTree` verifies, and its chain is the
      reference insertion of `x` into the old one. */
  lemma InsertValid<V>(t: Tree<V>, x: Elem<V>)
    requires Valid(t)
    ensures Valid(Insert(t, x).0)
    ensures Insert(t, x).0.thread == InsertSorted(t.thread, x)
  {
    InsertThread(t, x);
    if t.root.Node? {
      InsertNodeInorder(t.root, x);
      InsertNodeOrdered(t.root, x);
      ProbeFacts(t, x.key);
      var t' := Insert(t, x).0;
      var p := Descend(t.root, x.key);
      var i := p.idx;
      var s := t.thread;
      if p.cmp < 0 {
        assert t'.thread[0] == if i == 0 then x else s[0];
        assert t'.thread[|t'.thread| - 1] == s[|s| - 1];
      } else if 0 < p.cmp {
        assert t'.thread[0] == s[0];
        assert t'.thread[|t'.thread| - 1] == if i == |s| - 1 then x else s[|s| - 1];
      }
    }
  }

  /** Inserting an element whose key is stored returns the stored element and
      changes neither the size nor the shape nor the balances; inserting a new
      key returns nothing. */
  lemma InsertReplaces<V>(t: Tree<V>, x: Elem<V>)
    requires Valid(t)
    ensures var (t', displaced) := Insert(t, x);
            && (displaced.Some? <==> HasKey(t.thread, x.key))
            && (displaced.Some? ==> displaced.value in t.thread && SameShape(t.root, t'.root))
  {
    InsertThread(t, x);
    InsertNodeDisplaced(t.root, x);
    if t.root.Node? {
      ProbeFacts(t, x.key);
    }
  }

  /** `Delete` (avl.go:374-562): nothing happens when the key is absent. When
      the matched node is the only node, the early return at avl.go:496-499
      clears the root but leaves `head` and `tail` in place. Otherwise the node
      is relocated and the walk runs (`DeleteNode`), and the node is unlinked
      from the chain, `head` or `tail` moving to its neighbour at the ends. */
  function Delete<V>(t: Tree<V>, k: int): (res: (Tree<V>, Option<Elem<V>>))
    requires Valid(t)
    ensures res.1.None? ==> res.0 == t
    ensures res.1.Some? ==> res.1.value.key == k && res.0.size + 1 == t.size
  {
    if t.root.Nil? then (t, None)
    else
      ProbeFacts(t, k);
      var p := Descend(t.root, k);
      if p.cmp != 0 then (t, None)
      else
        var s := t.thread;
        var i := p.idx;
        if t.root.l.Nil? && t.root.r.Nil? then
          (Tree(t.size - 1, Nil, t.head, t.tail, []), Some(s[i]))
        else
          var head := if i == 0 then (if 1 < |s| then Some(s[1]) else None) else t.head;
          var tail := if i == |s| - 1 then (if 0 < i then Some(s[i - 1]) else None) else t.tail;
          (Tree(t.size - 1, DeleteNode(t.root, k).root, head, tail, s[..i] + s[i + 1..]), Some(s[i]))
  }

  /** `Delete` keeps every invariant `checkTree` verifies, and its chain is the
      reference removal of `k` from the old one. */
  lemma DeleteValid<V>(t: Tree<V>, k: int)
    requires Valid(t)
    ensures Valid(Delete(t, k).0)
    ensures Delete(t, k).0.thread == RemoveKey(t.thread, k)
    ensures Delete(t, k).1.Some? <==> HasKey(t.thread, k)
    ensures Delete(t, k).1.Some? ==> Delete(t, k).1.value in t.thread
  {
    if t.root.Node? {
      ProbeFacts(t, k);
      if Descend(t.root, k).cmp != 0 {
        RemoveKeyAbsent(t.thread, k);
      } else {
        DeleteFound(t, k);
      }
    }
  }

  lemma DeleteFound<V>(t: Tree<V>, k: int)
    requires Valid(t) && t.root.Node? && Descend(t.root, k).cmp == 0
    ensures Valid(Delete(t, k).0)
    ensures Delete(t, k).0.thread == RemoveKey(t.thread, k)
  {
    ProbeFacts(t, k);
    var s := t.thread;
    var i := Descend(t.root, k).idx;
    RemoveKeyAt(s, i);
    assert Inorder(t.root) == Inorder(t.root.l) + [t.root.data] + Inorder(t.root.r);
    if !(t.root.l.Nil? && t.root.r.Nil?) {
      DeleteInner(t, k, i);
    }
  }

  lemma DeleteInner<V>(t: Tree<V>, k: int, i: nat)
    requires Valid(t) && t.root.Node? && !(t.root.l.Nil? && t.root.r.Nil?)
    requires Descend(t.root, k) == Probe(i, 0) && i < |t.thread| && t.thread[i].key == k
    ensures Valid(Delete(t, k).0)
    ensures Delete(t, k).0.thread == t.thread[..i] + t.thread[i + 1..]
  {
    var s := t.thread;
    assert |s| >= 2 by {
      assert Inorder(t.root) == Inorder(t.root.l) + [t.root.data] + Inorder(t.root.r);
    }
    var head := if i == 0 then Some(s[1]) else t.head;
    var tail := if i == |s| - 1 then Some(s[i - 1]) else t.tail;
    assert Delete(t, k).0 == Tree(t.size - 1, DeleteNode(t.root, k).root, head, tail, s[..i] + s[i + 1..]);
    UnlinkedValid(t.root, k, s, i, head, tail);
  }

  /** The tree `Delete` builds around the relocated root, with the element
      cut out of the chain and the ends moved past it, is valid. */
  lemma UnlinkedValid<V>(n: Node<V>, k: int, s: seq<Elem<V>>, i: nat, head: Option<Elem<V>>, tail: Option<Elem<V>>)
    requires Bst(n) && Balanced(n) && Inorder(n) == s
    requires 2 <= |s| && i < |s| && s[i].key == k
    requires head == Some(if i == 0 then s[1] else s[0])
    requires tail == Some(if i == |s| - 1 then s[i - 1] else s[|s| - 1])
    ensures Valid(Tree(|s| - 1, DeleteNode(n, k).root, head, tail, s[..i] + s[i + 1..]))
  {
    var u := s[..i] + s[i + 1..];
    var root := DeleteNode(n, k).root;
    DeleteNodeInorder(n, k);
    RemoveKeyAt(s, i);
    assert Inorder(root) == u;
    DeleteRemovedIncreasing(s, i);
    assert Bst(root) && Balanced(root);
    UnlinkEnds(s, i);
    assert |u| == |s| - 1;
  }

  /** The ends of a chain after unlinking element `i`. */
  lemma UnlinkEnds<V>(s: seq<Elem<V>>, i: nat)
    requires 2 <= |s| && i < |s|
    ensures var u := s[..i] + s[i + 1..];
            && u[0] == (if i == 0 then s[1] else s[0])
            && u[|u| - 1] == (if i == |s| - 1 then s[i - 1] else s[|s| - 1])
  {
  }

  /** Cutting one element out of a sorted sequence leaves it sorted and rids it
      of that element's key. */
  lemma DeleteRemovedIncreasing<V>(s: seq<Elem<V>>, i: nat)
    requires i < |s| && Increasing(s)
    ensures Increasing(s[..i] + s[i + 1..])
    ensures !HasKey(s[..i] + s[i + 1..], s[i].key)
  {
    var u := s[..i] + s[i + 1..];
    assert forall j :: 0 <= j < |u| ==> u[j] == if j < i then s[j] else s[j + 1];
  }

  /** After a delete, the same key is no longer found: a second delete
      reports not-found and changes nothing. */
  lemma DeleteTwice<V>(t: Tree<V>, k: int)
    requires Valid(t)
    ensures var t' := Delete(t, k).0;
            Valid(t') && Delete(t', k) == (t', None)
  {
    DeleteValid(t, k);
    var t' := Delete(t, k).0;
    DeleteValid(t', k);
    if HasKey(t.thread, k) {
      ProbeFacts(t, k);
      var i := Descend(t.root, k).idx;
      RemoveKeyAt(t.thread, i);
      DeleteRemovedIncreasing(t.thread, i);
    } else {
      RemoveKeyAbsent(t.thread, k);
    }
  }

  /** Deleting the only element empties the tree but leaves `head` and `tail`
      pointing at the removed element. */
  lemma DeleteLastLeavesEnds<V>(t: Tree<V>, k: int)
    requires Valid(t) && |t.thread| == 1 && t.thread[0].key == k
    ensures var t' := Delete(t, k).0;
            && t'.root.Nil? && t'.size == 0
            && t'.head == Some(t.thread[0]) && t'.tail == Some(t.thread[0])
  {
    ProbeFacts(t, k);
    assert Inorder(t.root) == Inorder(t.root.l) + [t.root.data] + Inorder(t.root.r);
  }

  /** Inserting the same key twice: the second insert hands back the element
      the first one stored and leaves the size unchanged. */
  lemma InsertTwice<V>(t: Tree<V>, x: Elem<V>, y: Elem<V>)
    requires Valid(t) && x.key == y.key
    ensures var t1 := Insert(t, x).0;
            && Valid(t1)
            && Insert(t1, y).1 == Some(x)
            && Insert(t1, y).0.size == t1.size
  {
    InsertValid(t, x);
    var t1 := Insert(t, x).0;
    InsertSortedHolds(t.thread, x);
    InsertReplaces(t1, y);
    ProbeFacts(t1, y.key);
    InsertSortedUnique(t.thread, x, Insert(t1, y).1.value);
  }

  /** Deleting a freshly inserted key hands it back and restores the chain
      and the size. */
  lemma InsertThenDelete<V>(t: Tree<V>, x: Elem<V>)
    requires Valid(t) && !HasKey(t.thread, x.key)
    ensures var t1 := Insert(t, x).0;
            && Valid(t1)
            && Delete(t1, x.key).1 == Some(x)
            && Delete(t1, x.key).0.size == t.size
            && Delete(t1, x.key).0.thread == t.thread
  {
    InsertValid(t, x);
    InsertReplaces(t, x);
    var t1 := Insert(t, x).0;
    InsertSortedHolds(t.thread, x);
    DeleteValid(t1, x.key);
    InsertSortedUnique(t.thread, x, Delete(t1, x.key).1.value);
    RemoveInserted(t.thread, x);
  }

  /** The reference insertion stores `x`. */
  lemma {:induction false} InsertSortedHolds<V>(s: seq<Elem<V>>, x: Elem<V>)
    ensures x in InsertSorted(s, x)
  {
    if |s| > 0 && s[0].key < x.key {
      InsertSortedHolds(s[1..], x);
    }
  }

  /** In a sorted sequence that went through the reference insertion of `x`,
      `x` is the only element with its key. */
  lemma InsertSortedUnique<V>(s: seq<Elem<V>>, x: Elem<V>, e: Elem<V>)
    requires Increasing(s) && e in InsertSorted(s, x) && e.key == x.key
    ensures e == x
  {
    InsertSortedIncreasing(s, x);
    InsertSortedHolds(s, x);
    var u := InsertSorted(s, x);
    var i :| 0 <= i < |u| && u[i] == e;
    var j :| 0 <= j < |u| && u[j] == x;
    assert i == j;
  }

  /** Removing a key that was just inserted fresh gives back the original. */
  lemma {:induction false} RemoveInserted<V>(s: seq<Elem<V>>, x: Elem<V>)
    requires !HasKey(s, x.key)
    ensures RemoveKey(InsertSorted(s, x), x.key) == s
  {
    if |s| == 0 {
    } else if x.key < s[0].key {
      assert ([x] + s)[1..] == s;
    } else {
      assert s[0].key != x.key;
      RemoveInserted(s[1..], x);
      assert s == [s[0]] + s[1..];
    }
  }

  /** Inserting a key above every stored key appends it to the chain. */
  lemma InsertAbove<V>(t: Tree<V>, x: Elem<V>)
    requires Valid(t) && AllBelow(t.thread, x.key)
    ensures var (t', displaced) := Insert(t, x);
            && Valid(t') && t'.thread == t.thread + [x] && displaced.None? && t'.size == t.size + 1
  {
    InsertValid(t, x);
    InsertReplaces(t, x);
    InsertSortedAt(t.thread, |t.thread|, x);
    assert t.thread[..|t.thread|] == t.thread && t.thread[|t.thread|..] == [];
  }

  /** Removing one key keeps every other key. */
  lemma {:induction false} RemoveKeyKeeps<V>(s: seq<Elem<V>>, k: int, j: int)
    requires j != k
    ensures HasKey(RemoveKey(s, k), j) <==> HasKey(s, j)
  {
    if |s| > 0 {
      assert s == [s[0]] + s[1..];
      HasKeyConcat([s[0]], s[1..], j);
      if s[0].key != k {
        RemoveKeyKeeps(s[1..], k, j);
        HasKeyConcat([s[0]], RemoveKey(s[1..], k), j);
      }
    }
  }

  /** After `Delete`, the chain holds exactly the keys it held before except
      the deleted one. */
  lemma DeleteKeys<V>(t: Tree<V>, k: int, j: int)
    requires Valid(t)
    ensures HasKey(Delete(t, k).0.thread, j) <==> HasKey(t.thread, j) && j != k
  {
    DeleteValid(t, k);
    DeleteTwice(t, k);
    DeleteValid(Delete(t, k).0, k);
    if j != k {
      RemoveKeyKeeps(t.thread, k, j);
    }
  }
}

=== FILE: elements.dfy ===
/** Optional values: `None` plays the part of Go's nil pointer or nil interface. */
module Optional {

  datatype Option<T> = None | Some(value: T)
}

/**
 Stored elements, the three-way comparison the tree is ordered by, and the
 reference operations on strictly increasing sequences of elements that the
 tree's in-order sequence (its thread) is specified against.
 */
module Elements {

  /** A stored value. `key` is the part `CompareTo` looks at; `val` is the rest
      of the payload, so that replacing an equal element is observable. */
  datatype Elem<V> = Elem(key: int, val: V)

  /** `CompareTo`: -1, 0 or 1 as `a` orders before, equal to, or after `b`. */
  function Compare(a: int, b: int): (c: int)
    ensures c == 0 <==> a == b
    ensures c < 0 <==> a < b
    ensures c > 0 <==> b < a
    ensures -1 <= c <= 1
  {
    if a < b then -1 else if b < a then 1 else 0
  }

  /** Keys strictly increase along `s`: the search order of the thread. */
  ghost predicate Increasing<V>(s: seq<Elem<V>>) {
    forall i, j :: 0 <= i < j < |s| ==> s[i].key < s[j].key
  }

  /** Some element of `s` has key `k`. */
  ghost predicate HasKey<V>(s: seq<Elem<V>>, k: int) {
    exists i :: 0 <= i < |s| && s[i].key == k
  }

  /** Every key of `s` is below `k`. */
  ghost predicate AllBelow<V>(s: seq<Elem<V>>, k: int) {
    forall i :: 0 <= i < |s| ==> s[i].key < k
  }

  /** Every key of `s` is above `k`. */
  ghost predicate AllAbove<V>(s: seq<Elem<V>>, k: int) {
    forall i :: 0 <= i < |s| ==> k < s[i].key
  }

  /** Reference insertion into a sorted sequence: `x` replaces the element with
      an equal key, or goes in front of the first element with a larger key. */
  ghost function InsertSorted<V>(s: seq<Elem<V>>, x: Elem<V>): seq<Elem<V>> {
    if |s| == 0 then [x]
    else if x.key < s[0].key then [x] + s
    else if x.key == s[0].key then [x] + s[1..]
    else [s[0]] + InsertSorted(s[1..], x)
  }

  /** Reference removal: drops the first element whose key is `k`. */
  ghost function RemoveKey<V>(s: seq<Elem<V>>, k: int): seq<Elem<V>> {
    if |s| == 0 then []
    else if s[0].key == k then s[1..]
    else [s[0]] + RemoveKey(s[1..], k)
  }

  lemma IncreasingSplit<V>(a: seq<Elem<V>>, y: Elem<V>, b: seq<Elem<V>>)
    requires Increasing(a + [y] + b)
    ensures Increasing(a) && Increasing(b)
    ensures AllBelow(a, y.key) && AllAbove(b, y.key)
  {
    var s := a + [y] + b;
    forall i, j | 0 <= i < j < |a| ensures a[i].key < a[j].key {
      assert a[i] == s[i] && a[j] == s[j];
    }
    forall i, j | 0 <= i < j < |b| ensures b[i].key < b[j].key {
      assert b[i] == s[|a| + 1 + i] && b[j] == s[|a| + 1 + j];
    }
    forall i | 0 <= i < |a| ensures a[i].key < y.key {
      assert a[i] == s[i] && y == s[|a|];
    }
    forall i | 0 <= i < |b| ensures y.key < b[i].key {
      assert b[i] == s[|a| + 1 + i] && y == s[|a|];
    }
  }

  lemma IncreasingJoin<V>(a: seq<Elem<V>>, y: Elem<V>, b: seq<Elem<V>>)
    requires Increasing(a) && Increasing(b)
    requires AllBelow(a, y.key) && AllAbove(b, y.key)
    ensures Increasing(a + [y] + b)
  {
    var s := a + [y] + b;
    forall i, j | 0 <= i < j < |s| ensures s[i].key < s[j].key {
      if j < |a| {
      } else if j == |a| {
      } else if i < |a| {
        assert s[i].key < y.key < s[j].key;
      } else if i == |a| {
        assert s[j] == b[j - |a| - 1];
      } else {
        assert s[i] == b[i - |a| - 1] && s[j] == b[j - |a| - 1];
      }
    }
  }

  lemma HasKeyConcat<V>(a: seq<Elem<V>>, b: seq<Elem<V>>, k: int)
    ensures HasKey(a + b, k) <==> HasKey(a, k) || HasKey(b, k)
  {
    if HasKey(a + b, k) {
      var i :| 0 <= i < |a + b| && (a + b)[i].key == k;
      if i >= |a| {
        assert b[i - |a|].key == k;
      }
    }
    if HasKey(b, k) {
      var i :| 0 <= i < |b| && b[i].key == k;
      assert (a + b)[|a| + i].key == k;
    }
    if HasKey(a, k) {
      var i :| 0 <= i < |a| && a[i].key == k;
      assert (a + b)[i].key == k;
    }
  }

  /** Inserting in front of a suffix that starts above `x` only touches the prefix. */
  lemma {:induction false} InsertSortedBeforeSuffix<V>(a: seq<Elem<V>>, b: seq<Elem<V>>, x: Elem<V>)
    requires |b| > 0 && x.key < b[0].key
    ensures InsertSorted(a + b, x) == InsertSorted(a, x) + b
  {
    if |a| == 0 {
      assert a + b == b;
    } else {
      assert (a + b)[0] == a[0];
      assert (a + b)[1..] == a[1..] + b;
      if x.key < a[0].key {
      } else if x.key == a[0].key {
      } else {
        InsertSortedBeforeSuffix(a[1..], b, x);
      }
    }
  }

  /** Inserting after a prefix that lies entirely below `x` only touches the suffix. */
  lemma {:induction false} InsertSortedAfterPrefix<V>(a: seq<Elem<V>>, b: seq<Elem<V>>, x: Elem<V>)
    requires AllBelow(a, x.key)
    ensures InsertSorted(a + b, x) == a + InsertSorted(b, x)
  {
    if |a| == 0 {
      assert a + b == b;
    } else {
      assert (a + b)[0] == a[0];
      assert (a + b)[1..] == a[1..] + b;
      InsertSortedAfterPrefix(a[1..], b, x);
    }
  }

  /** The reference insertion at the position of the search: between the last
      element below `x` and the first element above it. */
  lemma {:induction false} InsertSortedAt<V>(s: seq<Elem<V>>, i: nat, x: Elem<V>)
    requires i <= |s|
    requires AllBelow(s[..i], x.key)
    requires i < |s| ==> x.key < s[i].key
    ensures InsertSorted(s, x) == s[..i] + [x] + s[i..]
  {
    if i < |s| {
      assert s == s[..i] + s[i..];
      InsertSortedAfterPrefix(s[..i], s[i..], x);
    } else {
      assert s == s[..i] + [];
      InsertSortedAfterPrefix(s[..i], [], x);
    }
  }

  /** The reference insertion of an element whose key is already at index `i`
      overwrites that element in place. */
  lemma InsertSortedReplaces<V>(s: seq<Elem<V>>, i: nat, x: Elem<V>)
    requires i < |s| && s[i].key == x.key
    requires AllBelow(s[..i], x.key)
    ensures InsertSorted(s, x) == s[i := x]
  {
    assert s == s[..i] + s[i..];
    InsertSortedAfterPrefix(s[..i], s[i..], x);
    assert s[i..][1..] == s[i + 1..];
  }

  lemma {:induction false} RemoveKeyAbsent<V>(s: seq<Elem<V>>, k: int)
    requires !HasKey(s, k)
    ensures RemoveKey(s, k) == s
  {
    if |s| > 0 {
      assert s[0].key != k;
      RemoveKeyAbsent(s[1..], k);
    }
  }

  /** Removing a key held by the prefix leaves the suffix alone. */
  lemma {:induction false} RemoveKeyInPrefix<V>(a: seq<Elem<V>>, b: seq<Elem<V>>, k: int)
    requires HasKey(a, k)
    ensures RemoveKey(a + b, k) == RemoveKey(a, k) + b
  {
    assert (a + b)[0] == a[0];
    if a[0].key == k {
      assert (a + b)[1..] == a[1..] + b;
    } else {
      var i :| 0 <= i < |a| && a[i].key == k;
      assert a[1..][i - 1].key == k;
      assert (a + b)[1..] == a[1..] + b;
      RemoveKeyInPrefix(a[1..], b, k);
    }
  }

  /** Removing a key the prefix does not hold leaves the prefix alone. */
  lemma {:induction false} RemoveKeyAfterPrefix<V>(a: seq<Elem<V>>, b: seq<Elem<V>>, k: int)
    requires !HasKey(a, k)
    ensures RemoveKey(a + b, k) == a + RemoveKey(b, k)
  {
    if |a| == 0 {
      assert a + b == b;
    } else {
      assert (a + b)[0] == a[0];
      assert a[0].key != k;
      assert (a + b)[1..] == a[1..] + b;
      RemoveKeyAfterPrefix(a[1..], b, k);
    }
  }

  /** Removing a key the suffix does not hold only touches the prefix. */
  lemma {:induction false} RemoveKeyBeforeSuffix<V>(a: seq<Elem<V>>, b: seq<Elem<V>>, k: int)
    requires !HasKey(b, k)
    ensures RemoveKey(a + b, k) == RemoveKey(a, k) + b
  {
    if |a| == 0 {
      assert a + b == b;
      RemoveKeyAbsent(b, k);
    } else {
      assert (a + b)[0] == a[0];
      assert (a + b)[1..] == a[1..] + b;
      if a[0].key != k {
        RemoveKeyBeforeSuffix(a[1..], b, k);
      }
    }
  }

  /** In a sorted sequence the reference removal cuts out exactly index `i`. */
  lemma RemoveKeyAt<V>(s: seq<Elem<V>>, i: nat)
    requires i < |s| && Increasing(s)
    ensures RemoveKey(s, s[i].key) == s[..i] + s[i + 1..]
  {
    var k := s[i].key;
    assert s == s[..i] + s[i..];
    RemoveKeyAfterPrefix(s[..i], s[i..], k);
    assert s[i..][1..] == s[i + 1..];
  }
}

=== FILE: lehmer.dfy ===
/**
 Lehmer codes, the digit form `Permutation` stores (combinatorics/permutation.go).

 A permutation of 0 .. n-1 is coded by n-1 digits: digit i counts the later
 entries that are smaller than entry i, so it lies in 0 .. n-1-i. The last
 entry needs no digit. The code is a number in the factorial number system,
 whose value `Rank` is the position of the permutation in lexicographic order.
 */
module Lehmer {

  /** `s` is a permutation of 0 .. |s|-1. */
  ghost predicate IsPerm(s: seq<int>) {
    && (forall i :: 0 <= i < |s| ==> 0 <= s[i] < |s|)
    && (forall i, j :: 0 <= i < j < |s| ==> s[i] != s[j])
  }

  /** Every digit of a code `c` is in range: digit i of a code for n = |c|+1
      elements lies in 0 .. n-1-i, that is 0 .. |c|-i. */
  ghost predicate InRange(c: seq<int>) {
    forall i :: 0 <= i < |c| ==> 0 <= c[i] <= |c| - i
  }

  /** One pass of `mklcode`'s inner loop: every later entry that is not below
      `a` moves down by one. */
  function Reduce(t: seq<int>, a: int): (r: seq<int>)
    ensures |r| == |t|
    ensures forall j :: 0 <= j < |t| ==> r[j] == (if a <= t[j] then t[j] - 1 else t[j])
  {
    seq(|t|, j requires 0 <= j < |t| => if a <= t[j] then t[j] - 1 else t[j])
  }

  /** One pass of `mkperm`'s inner loop: every later entry that is not below
      `a` moves up by one. */
  function Lift(t: seq<int>, a: int): (r: seq<int>)
    ensures |r| == |t|
    ensures forall j :: 0 <= j < |t| ==> r[j] == (if a <= t[j] then t[j] + 1 else t[j])
  {
    seq(|t|, j requires 0 <= j < |t| => if a <= t[j] then t[j] + 1 else t[j])
  }

  /** The code of the entries `s`: each entry in turn is a digit, and the
      entries after it are reduced past it. This is what `mklcode` computes,
      applied to every entry of the permutation but the last. */
  function EncodePrefix(s: seq<int>): (c: seq<int>)
    ensures |c| == |s|
    decreases |s|
  {
    if |s| == 0 then [] else [s[0]] + EncodePrefix(Reduce(s[1..], s[0]))
  }

  /** `mklcode`: the code of a permutation is the code of all its entries but
      the last. */
  function Encode(pi: seq<int>): (c: seq<int>)
    requires 1 <= |pi|
    ensures |c| == |pi| - 1
  {
    EncodePrefix(pi[..|pi| - 1])
  }

  /** `mkperm`: the last entry starts at zero; working leftwards, each digit
      becomes an entry and lifts every later entry that is not below it. */
  function Decode(c: seq<int>): (pi: seq<int>)
    ensures |pi| == |c| + 1
  {
    if |c| == 0 then [0] else [c[0]] + Lift(Decode(c[1..]), c[0])
  }

  /** The code of a permutation of two or more entries starts with its first
      entry and continues with the code of the rest reduced past it. */
  lemma EncodeStep(pi: seq<int>)
    requires 2 <= |pi|
    ensures Encode(pi) == [pi[0]] + Encode(Reduce(pi[1..], pi[0]))
  {
    var s := pi[..|pi| - 1];
    var t := Reduce(pi[1..], pi[0]);
    assert s[1..] == pi[1..|pi| - 1];
    assert Reduce(s[1..], s[0]) == t[..|t| - 1];
  }

  /** Reducing the rest of a permutation past its first entry leaves a
      permutation of one fewer element. */
  lemma ReducePerm(pi: seq<int>)
    requires IsPerm(pi) && 1 <= |pi|
    ensures IsPerm(Reduce(pi[1..], pi[0]))
  {
    var t := Reduce(pi[1..], pi[0]);
    forall i | 0 <= i < |t|
      ensures 0 <= t[i] < |t|
    {
      assert pi[i + 1] != pi[0];
    }
    forall i, j | 0 <= i < j < |t|
      ensures t[i] != t[j]
    {
      assert pi[i + 1] != pi[0] && pi[j + 1] != pi[0] && pi[i + 1] != pi[j + 1];
    }
  }

  /** Lifting a permutation past `a` in 0 .. |t| and putting `a` in front
      gives a permutation of one more element. */
  lemma LiftPerm(t: seq<int>, a: int)
    requires IsPerm(t) && 0 <= a <= |t|
    ensures IsPerm([a] + Lift(t, a))
  {
    var s := [a] + Lift(t, a);
    forall i, j | 0 <= i < j < |s|
      ensures s[i] != s[j]
    {
      if i > 0 {
        assert t[i - 1] != t[j - 1];
      }
    }
  }

  /** `mkperm` undoes `mklcode`: decoding the code of a permutation gives the
      permutation back. */
  lemma {:induction false} DecodeEncode(pi: seq<int>)
    requires IsPerm(pi) && 1 <= |pi|
    ensures Decode(Encode(pi)) == pi
    decreases |pi|
  {
    if |pi| == 1 {
      assert pi[0] == 0;
      assert pi == [0];
    } else {
      var a := pi[0];
      var t := Reduce(pi[1..], a);
      EncodeStep(pi);
      ReducePerm(pi);
      DecodeEncode(t);
      assert Encode(pi)[1..] == Encode(t);
      assert Decode(Encode(pi)) == [a] + Lift(t, a);
      forall j | 0 <= j < |t|
        ensures Lift(t, a)[j] == pi[1..][j]
      {
        assert pi[j + 1] != a;
      }
      assert Lift(t, a) == pi[1..];
    }
  }

  /** Reducing past `a` undoes lifting past `a`, whatever the entries. */
  lemma ReduceLift(t: seq<int>, a: int)
    ensures Reduce(Lift(t, a), a) == t
  {
  }

  /** `mklcode` undoes `mkperm` on codes whose digits are in range. */
  lemma {:induction false} EncodeDecode(c: seq<int>)
    requires InRange(c)
    ensures Encode(Decode(c)) == c
    decreases |c|
  {
    if |c| > 0 {
      var t := Decode(c[1..]);
      assert InRange(c[1..]) by {
        forall i | 0 <= i < |c[1..]|
          ensures 0 <= c[1..][i] <= |c[1..]| - i
        {
          assert c[1..][i] == c[i + 1];
        }
      }
      EncodeDecode(c[1..]);
      EncodeStep(Decode(c));
      assert Decode(c)[1..] == Lift(t, c[0]);
      ReduceLift(t, c[0]);
    }
  }

  /** Digits in range decode to a genuine permutation. */
  lemma {:induction false} DecodePerm(c: seq<int>)
    requires InRange(c)
    ensures IsPerm(Decode(c))
    decreases |c|
  {
    if |c| > 0 {
      assert InRange(c[1..]) by {
        forall i | 0 <= i < |c[1..]|
          ensures 0 <= c[1..][i] <= |c[1..]| - i
        {
          assert c[1..][i] == c[i + 1];
        }
      }
      DecodePerm(c[1..]);
      LiftPerm(Decode(c[1..]), c[0]);
    }
  }

  /** The code of a genuine permutation has every digit in range: what
      `Valid` checks. */
  lemma {:induction false} EncodeInRange(pi: seq<int>)
    requires IsPerm(pi) && 1 <= |pi|
    ensures InRange(Encode(pi))
    decreases |pi|
  {
    if |pi| >= 2 {
      var t := Reduce(pi[1..], pi[0]);
      EncodeStep(pi);
      ReducePerm(pi);
      EncodeInRange(t);
      var c := Encode(pi);
      forall i | 0 <= i < |c|
        ensures 0 <= c[i] <= |c| - i
      {
        if i > 0 {
          assert c[i] == Encode(t)[i - 1];
        }
      }
    }
  }

  /** A code is the code of some permutation exactly when its digits are in
      range, and the permutation it codes is unique. */
  lemma CodesArePermutations(pi: seq<int>)
    requires 1 <= |pi|
    ensures IsPerm(pi) <==> InRange(Encode(pi)) && Decode(Encode(pi)) == pi
  {
    if IsPerm(pi) {
      EncodeInRange(pi);
      DecodeEncode(pi);
    }
    if InRange(Encode(pi)) && Decode(Encode(pi)) == pi {
      DecodePerm(Encode(pi));
    }
  }

  function Fact(n: nat): (f: nat)
    ensures 1 <= f
  {
    if n == 0 then 1 else n * Fact(n - 1)
  }

  /** The code's value in the factorial number system: digit i of a code of
      length m weighs (m-i)!. */
  function Rank(c: seq<int>): int
  {
    if |c| == 0 then 0 else c[0] * Fact(|c|) + Rank(c[1..])
  }

  /** The all-zero code, `FirstPermutation`'s. */
  function Zeros(k: nat): (c: seq<int>)
    ensures |c| == k && forall j :: 0 <= j < k ==> c[j] == 0
  {
    seq(k, j => 0)
  }

  /** The code whose every digit is at its maximum, `LastPermutation`'s. */
  function Maxed(k: nat): (c: seq<int>)
    ensures |c| == k && forall j :: 0 <= j < k ==> c[j] == k - j
  {
    seq(k, j => k - j)
  }

  lemma InRangeTail(c: seq<int>)
    requires InRange(c) && 1 <= |c|
    ensures InRange(c[1..])
  {
    forall i | 0 <= i < |c| - 1
      ensures 0 <= c[1..][i] <= |c[1..]| - i
    {
      assert c[1..][i] == c[i + 1];
    }
  }

  lemma MulMono(a: int, b: int, f: nat)
    requires a <= b
    ensures a * f <= b * f
  {
  }

  /** A code with digits in range ranks below (|c|+1)!, the number of
      permutations it can code. */
  lemma {:induction false} RankBound(c: seq<int>)
    requires InRange(c)
    ensures 0 <= Rank(c) < Fact(|c| + 1)
    decreases |c|
  {
    if |c| > 0 {
      InRangeTail(c);
      RankBound(c[1..]);
      MulMono(c[0], |c|, Fact(|c|));
      MulMono(0, c[0], Fact(|c|));
    }
  }

  lemma {:induction false} RankZeros(k: nat)
    ensures Rank(Zeros(k)) == 0
  {
    if k > 0 {
      assert Zeros(k)[1..] == Zeros(k - 1);
      RankZeros(k - 1);
    }
  }

  /** The all-maximal code ranks last. */
  lemma {:induction false} RankMaxed(k: nat)
    ensures Rank(Maxed(k)) == Fact(k + 1) - 1
  {
    if k > 0 {
      assert Maxed(k)[1..] == Maxed(k - 1);
      RankMaxed(k - 1);
    }
  }

  /** Two codes sharing a prefix differ in rank as their suffixes do. */
  lemma {:induction false} RankConcat(p: seq<int>, s: seq<int>, s': seq<int>)
    requires |s| == |s'|
    ensures Rank(p + s) - Rank(p + s') == Rank(s) - Rank(s')
  {
    if |p| > 0 {
      assert (p + s)[1..] == p[1..] + s;
      assert (p + s')[1..] == p[1..] + s';
      assert Rank(p + s) == p[0] * Fact(|p| + |s|) + Rank(p[1..] + s);
      assert Rank(p + s') == p[0] * Fact(|p| + |s|) + Rank(p[1..] + s');
      RankConcat(p[1..], s, s');
    } else {
      assert p + s == s && p + s' == s';
    }
  }

  /** Carrying into a digit: raising digit d and clearing the maximal digits
      after it is one step up in rank. */
  lemma RankCarry(d: int, k: nat)
    ensures Rank([d + 1] + Zeros(k)) == Rank([d] + Maxed(k)) + 1
  {
    var f := Fact(k + 1);
    assert ([d + 1] + Zeros(k))[1..] == Zeros(k);
    assert ([d] + Maxed(k))[1..] == Maxed(k);
    RankZeros(k);
    RankMaxed(k);
    assert Rank([d + 1] + Zeros(k)) == (d + 1) * f;
    assert Rank([d] + Maxed(k)) == d * f + (f - 1);
    assert (d + 1) * f == d * f + f;
  }

  /** Lexicographic comparison of two codes of equal length, digit by digit
      from the front, as the loop of `CompareTo` does. */
  function CompareCodes(a: seq<int>, b: seq<int>): (r: int)
    requires |a| == |b|
    ensures -1 <= r <= 1
    ensures r == 0 <==> a == b
  {
    if |a| == 0 then 0
    else if a[0] > b[0] then 1
    else if a[0] < b[0] then -1
    else
      assert a == [a[0]] + a[1..] && b == [b[0]] + b[1..];
      CompareCodes(a[1..], b[1..])
  }

  /** A larger leading digit outweighs anything the later digits add. */
  lemma LeadingDigit(a: seq<int>, b: seq<int>)
    requires |a| == |b| && 1 <= |a| && InRange(a) && InRange(b) && a[0] > b[0]
    ensures Rank(a) > Rank(b)
  {
    var f := Fact(|a|);
    InRangeTail(a);
    InRangeTail(b);
    RankBound(a[1..]);
    RankBound(b[1..]);
    assert |b[1..]| + 1 == |a|;
    MulMono(b[0] + 1, a[0], f);
    assert (b[0] + 1) * f == b[0] * f + f;
    assert Rank(a) >= a[0] * f;
    assert Rank(b) < b[0] * f + f;
  }

  /** On codes in range, lexicographic order is rank order. */
  lemma {:induction false} CompareCodesRank(a: seq<int>, b: seq<int>)
    requires |a| == |b| && InRange(a) && InRange(b)
    ensures CompareCodes(a, b) < 0 <==> Rank(a) < Rank(b)
    ensures CompareCodes(a, b) > 0 <==> Rank(a) > Rank(b)
    decreases |a|
  {
    if |a| > 0 {
      if a[0] > b[0] {
        LeadingDigit(a, b);
      } else if a[0] < b[0] {
        LeadingDigit(b, a);
      } else {
        InRangeTail(a);
        InRangeTail(b);
        CompareCodesRank(a[1..], b[1..]);
        assert Rank(a) - Rank(b) == Rank(a[1..]) - Rank(b[1..]);
      }
    }
  }

  /** Codes in range of one length with equal rank are equal. */
  lemma RankInjective(a: seq<int>, b: seq<int>)
    requires |a| == |b| && InRange(a) && InRange(b) && Rank(a) == Rank(b)
    ensures a == b
  {
    CompareCodesRank(a, b);
  }
}

=== FILE: permutation.dfy ===
/**
 `Permutation` (combinatorics/permutation.go): a permutation of 0 .. n-1 held
 as its Lehmer code, stepped through in lexicographic order by incrementing
 the code as a mixed-radix number.
 */
module Permutations {
  import opened Optional
  import opened Lehmer

  /** A `Permutation`: its order `n`, its Lehmer code, and the entries
      themselves when they were stored by `GetPermutation`. `Next`,
      `FirstPermutation` and `LastPermutation` leave the entries nil for
      `mkperm` to fill in on demand. */
  datatype Permutation = Permutation(n: nat, lcode: seq<int>, perm: Option<seq<int>>)

  /** The shape every constructor produces. An order of zero never gets this
      far: `make` panics on the code's length of -1. */
  ghost predicate WellFormed(p: Permutation) {
    && 1 <= p.n
    && |p.lcode| == p.n - 1
    && (p.perm.Some? ==> |p.perm.value| == p.n)
  }

  /** A permutation whose code digits are in range and whose stored entries,
      if any, are the ones the code stands for. */
  ghost predicate Proper(p: Permutation) {
    && WellFormed(p)
    && InRange(p.lcode)
    && (p.perm.Some? ==> p.perm.value == Decode(p.lcode))
  }

  /** `mklcode`: the code is computed in place over a copy of every entry but
      the last. Pass i reduces the later digits past digit i. */
  method MkLcode(perm: seq<int>) returns (lcode: seq<int>)
    requires 1 <= |perm|
    ensures lcode == Encode(perm)
  {
    var n := |perm|;
    lcode := perm[..n - 1];
    var i := 0;
    while i < n - 2
      invariant 0 <= i && (i == 0 || i <= n - 2)
      invariant |lcode| == n - 1
      invariant lcode[..i] + EncodePrefix(lcode[i..]) == Encode(perm)
    {
      ghost var before := lcode;
      var j := i + 1;
      while j < n - 1
        invariant i + 1 <= j <= n - 1
        invariant |lcode| == n - 1
        invariant forall t :: 0 <= t < n - 1 && (t <= i || j <= t) ==> lcode[t] == before[t]
        invariant forall t :: i < t < j ==>
                    lcode[t] == (if before[i] <= before[t] then before[t] - 1 else before[t])
      {
        if lcode[i] <= lcode[j] {
          lcode := lcode[j := lcode[j] - 1];
        }
        j := j + 1;
      }
      ReducePass(before, lcode, i);
      i := i + 1;
    }
    if n >= 2 {
      assert lcode[i..] == [lcode[i]];
      assert lcode == lcode[..i] + lcode[i..];
    }
  }

  /** After pass i of `mklcode`, the prefix-plus-code form is unchanged. */
  lemma ReducePass(before: seq<int>, after: seq<int>, i: nat)
    requires i < |before| == |after|
    requires forall t :: 0 <= t <= i ==> after[t] == before[t]
    requires forall t :: i < t < |before| ==>
               after[t] == (if before[i] <= before[t] then before[t] - 1 else before[t])
    ensures after[..i + 1] + EncodePrefix(after[i + 1..]) == before[..i] + EncodePrefix(before[i..])
  {
    assert after[i + 1..] == Reduce(before[i + 1..], before[i]);
    assert before[i..][1..] == before[i + 1..];
    assert after[..i + 1] == before[..i] + [before[i]];
  }

  /** `mkperm`: the code digits followed by a zero, then, from the second to
      last position leftwards, every later entry not below the current one
      moves up by one. */
  method MkPerm(lcode: seq<int>) returns (perm: seq<int>)
    ensures perm == Decode(lcode)
  {
    var n := |lcode| + 1;
    perm := lcode + [0];
    var i := n - 2;
    while i >= 0
      invariant -1 <= i <= n - 2
      invariant |perm| == n
      invariant perm[..i + 1] == lcode[..i + 1]
      invariant perm[i + 1..] == Decode(lcode[i + 1..])
    {
      ghost var before := perm;
      var j := i + 1;
      while j < n
        invariant i + 1 <= j <= n
        invariant |perm| == n
        invariant forall t :: 0 <= t < n && (t <= i || j <= t) ==> perm[t] == before[t]
        invariant forall t :: i < t < j ==>
                    perm[t] == (if before[i] <= before[t] then before[t] + 1 else before[t])
      {
        if perm[i] <= perm[j] {
          perm := perm[j := perm[j] + 1];
        }
        j := j + 1;
      }
      LiftPass(lcode, before, perm, i);
      i := i - 1;
    }
  }

  /** After pass i of `mkperm`, the entries from i on are the decoding of the
      digits from i on. */
  lemma LiftPass(lcode: seq<int>, before: seq<int>, after: seq<int>, i: nat)
    requires i < |lcode| && |before| == |after| == |lcode| + 1
    requires before[..i + 1] == lcode[..i + 1]
    requires before[i + 1..] == Decode(lcode[i + 1..])
    requires forall t :: 0 <= t <= i ==> after[t] == before[t]
    requires forall t :: i < t < |before| ==>
               after[t] == (if before[i] <= before[t] then before[t] + 1 else before[t])
    ensures after[..i] == lcode[..i]
    ensures after[i..] == Decode(lcode[i..])
  {
    assert before[i] == lcode[i];
    assert lcode[i..][1..] == lcode[i + 1..];
    assert after[i + 1..] == Lift(before[i + 1..], before[i]);
    assert after[i..] == [after[i]] + after[i + 1..];
    assert after[..i] == before[..i];
  }

  /** `Valid`: every code digit i lies in 0 .. n-1-i. */
  function Valid(p: Permutation): (b: bool)
    requires WellFormed(p)
    ensures b <==> InRange(p.lcode)
  {
    forall i | 0 <= i < |p.lcode| :: 0 <= p.lcode[i] < p.n - i
  }

  /** `GetPermutation` as written: the entries are stored, their code is
      computed, and the call panics (here `None`) when `Valid` fails. An
      empty argument panics in `mklcode`. */
  function GetPermutation(pi: seq<int>): (p: Option<Permutation>)
    ensures p.Some? <==> 1 <= |pi| && InRange(Encode(pi))
    ensures p.Some? ==> WellFormed(p.value) && InRange(p.value.lcode) && p.value.perm == Some(pi)
    ensures 1 <= |pi| && IsPerm(pi) ==> p.Some?
  {
    if |pi| == 0 then None
    else
      var p := Permutation(|pi|, Encode(pi), Some(pi));
      if Valid(p) then Some(p)
      else
        assert !IsPerm(pi) by {
          if IsPerm(pi) {
            EncodeInRange(pi);
          }
        }
        None
  }

  /** `GetPermutation([0, 0])` is accepted: `Valid` never looks at the last
      entry, so a repeated value slips through and the stored entries
      disagree with the permutation the code stands for. */
  lemma GetPermutationAcceptsRepeats()
    ensures !IsPerm([0, 0])
    ensures GetPermutation([0, 0]) == Some(Permutation(2, [0], Some([0, 0])))
    ensures Decode([0]) == [0, 1]
  {
    assert [0, 0][0] == [0, 0][1];
    assert Encode([0, 0]) == [0];
  }

  /** The acceptance of `GetPermutation` as written does not depend on the
      last entry at all: replacing it by any value gives the same verdict. */
  lemma GetPermutationIgnoresLast(pi: seq<int>, v: int)
    requires 1 <= |pi|
    ensures GetPermutation(pi[..|pi| - 1] + [v]).Some? <==> GetPermutation(pi).Some?
  {
    var q := pi[..|pi| - 1] + [v];
    assert q[..|q| - 1] == pi[..|pi| - 1];
  }

  /** An accepted permutation may hold entries outside 0 .. n-1: `Index`
      then returns them unchanged. */
  lemma GetPermutationAcceptsOutOfRange()
    ensures GetPermutation([0, 5]).Some?
    ensures Index(GetPermutation([0, 5]).value, 1) == 5
  {
    assert Encode([0, 5]) == [0];
  }

  /** `GetPermutation` as evidently intended: it also checks that the code
      decodes back to the given entries, so it accepts exactly the genuine
      permutations. */
  function GetPermutationFixed(pi: seq<int>): (p: Option<Permutation>)
    ensures p.Some? <==> 1 <= |pi| && IsPerm(pi)
    ensures p.Some? ==> Proper(p.value) && p.value.perm == Some(pi)
  {
    if |pi| == 0 then None
    else
      var p := Permutation(|pi|, Encode(pi), Some(pi));
      CodesArePermutations(pi);
      if Valid(p) && Decode(p.lcode) == pi then Some(p) else None
  }

  /** `Code`: code digit k, or -1 outside 0 .. n-2. */
  function Code(p: Permutation, k: int): (d: int)
    requires WellFormed(p)
    ensures k < 0 || p.n - 1 <= k ==> d == -1
    ensures 0 <= k < p.n - 1 && InRange(p.lcode) ==> 0 <= d < p.n - k
  {
    if k < 0 || k >= p.n - 1 then -1 else p.lcode[k]
  }

  /** The entries: the stored ones, or `mkperm`'s. */
  function Entries(p: Permutation): (pi: seq<int>)
    requires WellFormed(p)
    ensures |pi| == p.n
  {
    if p.perm.Some? then p.perm.value else Decode(p.lcode)
  }

  /** A proper permutation's entries are a permutation of 0 .. n-1. */
  lemma ProperEntries(p: Permutation)
    requires WellFormed(p)
    ensures Proper(p) ==> IsPerm(Entries(p))
  {
    if Proper(p) {
      DecodePerm(p.lcode);
    }
  }

  /** `Index`: entry k of the permutation, or -1 outside 0 .. n-1. */
  function Index(p: Permutation, k: int): (e: int)
    requires WellFormed(p)
    ensures k < 0 || p.n <= k ==> e == -1
    ensures 0 <= k < p.n && Proper(p) ==> 0 <= e < p.n
  {
    if k < 0 || k >= p.n then -1
    else
      ProperEntries(p);
      Entries(p)[k]
  }

  /** `Index` of a proper permutation takes each value in 0 .. n-1 at exactly
      one position. */
  lemma IndexIsPermutation(p: Permutation, j: int, k: int)
    requires Proper(p) && 0 <= j < k < p.n
    ensures Index(p, j) != Index(p, k)
  {
    ProperEntries(p);
  }

  /** `FirstPermutation`: the all-zero code, the identity permutation. */
  function FirstPermutation(n: int): (p: Permutation)
    requires 1 <= n
    ensures Proper(p) && p.n == n && Rank(p.lcode) == 0
  {
    RankZeros(n - 1);
    Permutation(n, Zeros(n - 1), None)
  }

  /** `LastPermutation`: digit i is n-1-i, its maximum. */
  function LastPermutation(n: int): (p: Permutation)
    requires 1 <= n
    ensures Proper(p) && p.n == n && Rank(p.lcode) == Fact(n) - 1
  {
    RankMaxed(n - 1);
    Permutation(n, Maxed(n - 1), None)
  }

  /** `HasNext`: some digit is below its maximum. */
  function HasNext(p: Permutation): bool
    requires WellFormed(p)
  {
    exists i | 0 <= i < |p.lcode| :: p.lcode[i] < p.n - i - 1
  }

  /** `HasPrev`: some digit is above zero. */
  function HasPrev(p: Permutation): bool
    requires WellFormed(p)
  {
    exists i | 0 <= i < |p.lcode| :: p.lcode[i] > 0
  }

  /** The scan of `Next`: from digit `i` leftwards, the first digit below its
      maximum n-1-i. */
  function LastBelowMax(c: seq<int>, n: int, i: int): (k: Option<nat>)
    requires -1 <= i < |c|
    ensures k.Some? ==> k.value <= i && c[k.value] < n - k.value - 1
    ensures k.Some? ==> forall j :: k.value < j <= i ==> c[j] >= n - j - 1
    ensures k.None? ==> forall j :: 0 <= j <= i ==> c[j] >= n - j - 1
    decreases i + 1
  {
    if i < 0 then None
    else if c[i] < n - i - 1 then Some(i)
    else LastBelowMax(c, n, i - 1)
  }

  /** `Next`: the rightmost digit below its maximum goes up by one and every
      digit after it goes back to zero; nil when every digit is at its
      maximum. The result is a fresh value, so the receiver is untouched. */
  function Next(p: Permutation): (q: Option<Permutation>)
    requires WellFormed(p)
    ensures q.Some? <==> HasNext(p)
    ensures q.Some? ==> WellFormed(q.value) && q.value.n == p.n && q.value.perm.None?
  {
    match LastBelowMax(p.lcode, p.n, p.n - 2)
    case None => None
    case Some(i) => Some(Permutation(p.n, p.lcode[..i] + [p.lcode[i] + 1] + Zeros(p.n - 2 - i), None))
  }

  /** `Prev` as written: its loop body returns during the first iteration, so
      only the last digit changes. It goes down by one if above zero and is
      otherwise set to its maximum, 1; the earlier digits are never looked at.
      With a single element there is no digit and the result is nil. */
  function Prev(p: Permutation): (q: Option<Permutation>)
    requires WellFormed(p)
    ensures q.None? <==> p.n == 1
    ensures q.Some? ==> WellFormed(q.value) && q.value.n == p.n
    ensures q.Some? ==> q.value.lcode[..p.n - 2] == p.lcode[..p.n - 2]
  {
    var i := p.n - 2;
    if i < 0 then None
    else if p.lcode[i] > 0 then
      Some(Permutation(p.n, p.lcode[..i] + [p.lcode[i] - 1], None))
    else
      Some(Permutation(p.n, p.lcode[..i] + [p.n - i - 1], None))
  }

  /** `Prev` does not undo `Next`: from the code [0, 1] of 0 2 1, `Next` gives
      [1, 0], the code of 1 0 2, and `Prev` of that gives [1, 1], the code of
      1 2 0, instead of [0, 1] again. */
  lemma PrevDoesNotUndoNext()
    ensures var p := Permutation(3, [0, 1], None);
            && Next(p) == Some(Permutation(3, [1, 0], None))
            && Prev(Next(p).value) == Some(Permutation(3, [1, 1], None))
  {
    var c := [0, 1];
    assert LastBelowMax(c, 3, 1) == LastBelowMax(c, 3, 0) == Some(0);
    assert c[..0] + [c[0] + 1] + Zeros(1) == [1, 0];
    assert [1, 0][..1] + [1] == [1, 1];
  }

  /** The scan a working `Prev` needs: from digit `i` leftwards, the first
      digit above zero. */
  function LastAboveZero(c: seq<int>, i: int): (k: Option<nat>)
    requires -1 <= i < |c|
    ensures k.Some? ==> k.value <= i && c[k.value] > 0
    ensures k.Some? ==> forall j :: k.value < j <= i ==> c[j] <= 0
    ensures k.None? ==> forall j :: 0 <= j <= i ==> c[j] <= 0
    decreases i + 1
  {
    if i < 0 then None
    else if c[i] > 0 then Some(i)
    else LastAboveZero(c, i - 1)
  }

  /** `Prev` as evidently intended, the mirror image of `Next`: the rightmost
      digit above zero goes down by one and every digit after it goes to its
      maximum; nil when every digit is zero. */
  function PrevFixed(p: Permutation): (q: Option<Permutation>)
    requires WellFormed(p)
    ensures q.Some? <==> HasPrev(p)
    ensures q.Some? ==> WellFormed(q.value) && q.value.n == p.n && q.value.perm.None?
  {
    match LastAboveZero(p.lcode, p.n - 2)
    case None => None
    case Some(i) => Some(Permutation(p.n, p.lcode[..i] + [p.lcode[i] - 1] + Maxed(p.n - 2 - i), None))
  }

  /** Raising digit i and clearing the maximal digits after it: one step
      up in rank. */
  lemma CarryAt(c: seq<int>, i: nat, c': seq<int>)
    requires i < |c| && c[i + 1..] == Maxed(|c| - 1 - i)
    requires c' == c[..i] + [c[i] + 1] + Zeros(|c| - 1 - i)
    ensures Rank(c') == Rank(c) + 1
  {
    var k := |c| - 1 - i;
    assert c == c[..i] + ([c[i]] + Maxed(k));
    assert c' == c[..i] + ([c[i] + 1] + Zeros(k));
    RankConcat(c[..i], [c[i] + 1] + Zeros(k), [c[i]] + Maxed(k));
    RankCarry(c[i], k);
  }

  /** Lowering digit i and filling the digits after it with their maxima: one
      step down in rank. */
  lemma BorrowAt(c: seq<int>, i: nat, c': seq<int>)
    requires i < |c| && c[i + 1..] == Zeros(|c| - 1 - i)
    requires c' == c[..i] + [c[i] - 1] + Maxed(|c| - 1 - i)
    ensures Rank(c') == Rank(c) - 1
  {
    var k := |c| - 1 - i;
    assert c == c[..i] + ([c[i]] + Zeros(k));
    assert c' == c[..i] + ([c[i] - 1] + Maxed(k));
    RankConcat(c[..i], [c[i]] + Zeros(k), [c[i] - 1] + Maxed(k));
    RankCarry(c[i] - 1, k);
  }

  /** Digits in range that are all at least their maximum are at it. */
  lemma TopDigits(c: seq<int>, i: nat)
    requires InRange(c) && i <= |c|
    requires forall j :: i <= j < |c| ==> c[j] >= |c| - j
    ensures c[i..] == Maxed(|c| - i)
  {
  }

  /** Digits in range that are all at most zero are zero. */
  lemma BottomDigits(c: seq<int>, i: nat)
    requires InRange(c) && i <= |c|
    requires forall j :: i <= j < |c| ==> c[j] <= 0
    ensures c[i..] == Zeros(|c| - i)
  {
  }

  /** `Next` is a mixed-radix increment: on a code in range it yields a code
      in range whose rank is one higher. */
  lemma NextIncrements(p: Permutation)
    requires WellFormed(p) && InRange(p.lcode) && HasNext(p)
    ensures InRange(Next(p).value.lcode)
    ensures Rank(Next(p).value.lcode) == Rank(p.lcode) + 1
  {
    var c := p.lcode;
    var i := LastBelowMax(c, p.n, p.n - 2).value;
    TopDigits(c, i + 1);
    CarryAt(c, i, Next(p).value.lcode);
  }

  /** The working `Prev` is a mixed-radix decrement: on a code in range it
      yields a code in range whose rank is one lower. */
  lemma PrevFixedDecrements(p: Permutation)
    requires WellFormed(p) && InRange(p.lcode) && HasPrev(p)
    ensures InRange(PrevFixed(p).value.lcode)
    ensures Rank(PrevFixed(p).value.lcode) == Rank(p.lcode) - 1
  {
    var c := p.lcode;
    var i := LastAboveZero(c, p.n - 2).value;
    BottomDigits(c, i + 1);
    BorrowAt(c, i, PrevFixed(p).value.lcode);
  }

  /** On a code in range, `HasNext` holds exactly when the code is not the
      last of the n! codes. */
  lemma HasNextRank(p: Permutation)
    requires WellFormed(p) && InRange(p.lcode)
    ensures HasNext(p) <==> Rank(p.lcode) < Fact(p.n) - 1
  {
    if HasNext(p) {
      NextIncrements(p);
      RankBound(Next(p).value.lcode);
    } else {
      assert p.lcode == Maxed(p.n - 1);
      RankMaxed(p.n - 1);
    }
  }

  /** On a code in range, `HasPrev` holds exactly when the code is not the
      first. */
  lemma HasPrevRank(p: Permutation)
    requires WellFormed(p) && InRange(p.lcode)
    ensures HasPrev(p) <==> Rank(p.lcode) > 0
  {
    if HasPrev(p) {
      PrevFixedDecrements(p);
      RankBound(PrevFixed(p).value.lcode);
    } else {
      assert p.lcode == Zeros(p.n - 1);
      RankZeros(p.n - 1);
    }
  }

  /** The working `Prev` undoes `Next`. */
  lemma PrevFixedAfterNext(p: Permutation)
    requires WellFormed(p) && InRange(p.lcode) && HasNext(p)
    ensures var q := Next(p).value;
            HasPrev(q) && PrevFixed(q) == Some(Permutation(p.n, p.lcode, None))
  {
    var q := Next(p).value;
    NextIncrements(p);
    RankBound(p.lcode);
    HasPrevRank(q);
    PrevFixedDecrements(q);
    RankInjective(PrevFixed(q).value.lcode, p.lcode);
  }

  /** `Next` undoes the working `Prev`. */
  lemma NextAfterPrevFixed(p: Permutation)
    requires WellFormed(p) && InRange(p.lcode) && HasPrev(p)
    ensures var q := PrevFixed(p).value;
            HasNext(q) && Next(q) == Some(Permutation(p.n, p.lcode, None))
  {
    var q := PrevFixed(p).value;
    PrevFixedDecrements(p);
    RankBound(p.lcode);
    HasNextRank(q);
    NextIncrements(q);
    RankInjective(Next(q).value.lcode, p.lcode);
  }

  /** `CompareTo`: by order first, then digit by digit along the codes. */
  function CompareTo(a: Permutation, b: Permutation): (r: int)
    requires WellFormed(a) && WellFormed(b)
    ensures -1 <= r <= 1
    ensures r == 0 <==> a.n == b.n && a.lcode == b.lcode
    ensures a.n != b.n ==> (r < 0 <==> a.n < b.n)
  {
    if a.n < b.n then -1
    else if a.n > b.n then 1
    else CompareCodes(a.lcode, b.lcode)
  }

  /** For permutations of one order with codes in range, `CompareTo` is the
      order of their ranks, that is their lexicographic order. */
  lemma CompareToRank(a: Permutation, b: Permutation)
    requires WellFormed(a) && WellFormed(b) && a.n == b.n
    requires InRange(a.lcode) && InRange(b.lcode)
    ensures CompareTo(a, b) < 0 <==> Rank(a.lcode) < Rank(b.lcode)
    ensures CompareTo(a, b) > 0 <==> Rank(a.lcode) > Rank(b.lcode)
  {
    CompareCodesRank(a.lcode, b.lcode);
  }

  /** `CompareTo` is antisymmetric. */
  lemma CompareToAntisymmetric(a: Permutation, b: Permutation)
    requires WellFormed(a) && WellFormed(b)
    ensures CompareTo(a, b) == -CompareTo(b, a)
  {
    if a.n == b.n {
      CompareCodesAntisymmetric(a.lcode, b.lcode);
    }
  }

  lemma {:induction false} CompareCodesAntisymmetric(a: seq<int>, b: seq<int>)
    requires |a| == |b|
    ensures CompareCodes(a, b) == -CompareCodes(b, a)
    decreases |a|
  {
    if |a| > 0 && a[0] == b[0] {
      CompareCodesAntisymmetric(a[1..], b[1..]);
    }
  }

  /** `Next` moves strictly up in `CompareTo` order. */
  lemma NextIsGreater(p: Permutation)
    requires WellFormed(p) && InRange(p.lcode) && HasNext(p)
    ensures CompareTo(Next(p).value, p) == 1
  {
    NextIncrements(p);
    CompareToRank(Next(p).value, p);
  }

  /** `TestPermutation`: starting from `FirstPermutation(n)` and calling
      `Next` while `HasNext` visits all n! permutations and stops at
      `LastPermutation(n)`. */
  method EnumeratePermutations(n: int) returns (p: Permutation, count: nat)
    requires 1 <= n
    ensures p == LastPermutation(n) && count == Fact(n)
  {
    p := FirstPermutation(n);
    count := 1;
    while HasNext(p)
      invariant WellFormed(p) && p.n == n && InRange(p.lcode) && p.perm.None?
      invariant Rank(p.lcode) == count - 1 && count <= Fact(n)
      decreases Fact(n) - count
    {
      NextIncrements(p);
      HasNextRank(p);
      p := Next(p).value;
      count := count + 1;
    }
    HasNextRank(p);
    RankInjective(p.lcode, LastPermutation(n).lcode);
  }
}

=== FILE: selection.dfy ===
/**
 `Selection` (combinatorics/selection.go): a subset of 0 .. n-1 held as the
 number x whose bit i is set when i is selected, stepped through by counting
 x up or down. The source keeps x in a `big.Int`; here it is an unbounded
 `int`, signed as a `big.Int` is.
 */
module Selections {

  datatype Selection = Selection(n: nat, x: int)

  function Pow2(k: nat): (p: nat)
    ensures 1 <= p
  {
    if k == 0 then 1 else 2 * Pow2(k - 1)
  }

  /** `big.Int.BitLen`: the number of bits of |v|, zero for zero. */
  function BitLen(v: int): (b: nat)
    ensures b == 0 <==> v == 0
    decreases if v < 0 then 1 - v else v
  {
    if v < 0 then BitLen(-v)
    else if v == 0 then 0
    else 1 + BitLen(v / 2)
  }

  /** `big.Int.Bit`: bit i of v, that is (v >> i) & 1, with the shift
      rounding towards minus infinity as a two's complement shift does. */
  function BitOf(v: int, i: nat): bool
    decreases i
  {
    if i == 0 then v % 2 == 1 else BitOf(v / 2, i - 1)
  }

  /** A number fits in k bits exactly when it is below 2^k. */
  lemma {:induction false} BitLenFits(v: nat, k: nat)
    ensures BitLen(v) <= k <==> v < Pow2(k)
  {
    if k > 0 && v > 0 {
      BitLenFits(v / 2, k - 1);
    }
  }

  /** `FirstSelection`: nothing selected. */
  function FirstSelection(n: nat): (s: Selection)
    ensures s.n == n && !HasPrev(s)
    ensures forall i: nat :: !Test(s, i)
  {
    ZeroBits();
    Selection(n, 0)
  }

  /** `LastSelection`: 2^n - 1, everything in 0 .. n-1 selected and nothing
      above. */
  function LastSelection(n: nat): (s: Selection)
    ensures s.n == n && !HasNext(s)
    ensures forall i: nat :: Test(s, i) <==> i < n
  {
    AllOnes(n);
    Selection(n, Ones(n))
  }

  /** `HasNext`: x+1 still has at most n bits. */
  function HasNext(s: Selection): (b: bool)
    ensures b <==> 0 < s.x + 1 + Pow2(s.n) && s.x + 1 < Pow2(s.n)
  {
    BitLenFits(if s.x + 1 < 0 then -(s.x + 1) else s.x + 1, s.n);
    BitLen(s.x + 1) <= s.n
  }

  /** `HasPrev`: x has any bits at all, that is x is not zero. */
  function HasPrev(s: Selection): (b: bool)
    ensures b <==> s.x != 0
  {
    BitLen(s.x) > 0
  }

  /** `Next`: the following subset in counting order, over the same n. */
  function Next(s: Selection): (t: Selection)
    ensures t.n == s.n
    ensures 0 <= s.x && HasNext(s) ==> 0 < t.x < Pow2(s.n)
  {
    Selection(s.n, s.x + 1)
  }

  /** `Prev`: the preceding subset in counting order, over the same n. Like
      the source, it does not check `HasPrev`. */
  function Prev(s: Selection): (t: Selection)
    ensures t.n == s.n
    ensures 0 <= s.x < Pow2(s.n) && HasPrev(s) ==> 0 <= t.x < Pow2(s.n) - 1
  {
    Selection(s.n, s.x - 1)
  }

  /** `Next` and `Prev` undo each other. */
  lemma NextPrevInverse(s: Selection)
    ensures Prev(Next(s)) == s && Next(Prev(s)) == s
  {
  }

  /** `Test`: whether `idx` is selected. A negative index makes `big.Int.Bit`
      panic. */
  function Test(s: Selection, idx: nat): (b: bool)
    ensures 0 <= s.x < Pow2(idx) ==> !b
  {
    HighBitsClear(s.x, idx);
    BitOf(s.x, idx)
  }

  lemma {:induction false} HighBitsClear(v: int, i: nat)
    ensures 0 <= v < Pow2(i) ==> !BitOf(v, i)
    decreases i
  {
    if i > 0 {
      HighBitsClear(v / 2, i - 1);
    }
  }

  lemma ZeroBits()
    ensures forall i: nat :: !BitOf(0, i)
  {
    forall i: nat ensures !BitOf(0, i) {
      HighBitsClear(0, i);
    }
  }

  /** 2^n - 1, the number with n one bits. */
  function Ones(n: nat): int
  {
    Pow2(n) - 1
  }

  /** 2^n - 1 has bits 0 .. n-1 set and no others. */
  lemma AllOnes(n: nat)
    ensures forall i: nat :: BitOf(Ones(n), i) <==> i < n
  {
    forall i: nat ensures BitOf(Ones(n), i) <==> i < n {
      AllOnesAt(n, i);
    }
  }

  lemma {:induction false} AllOnesAt(n: nat, i: nat)
    ensures BitOf(Ones(n), i) <==> i < n
    decreases i
  {
    if n == 0 {
      HighBitsClear(0, i);
    } else if i > 0 {
      assert Ones(n) / 2 == Ones(n - 1);
      AllOnesAt(n - 1, i - 1);
    }
  }

  /** `String`: "{" then bit 0, bit 1, ... bit n-1 as the digits 0 and 1
      separated by commas, then "}". */
  function String(s: Selection): (r: seq<char>)
    ensures |r| == if s.n == 0 then 2 else 2 * s.n + 1
    ensures r[0] == '{' && r[|r| - 1] == '}'
    ensures forall i :: 0 <= i < s.n ==> r[2 * i + 1] == if Test(s, i) then '1' else '0'
    ensures forall k :: 0 < k < |r| - 1 && k % 2 == 0 ==> r[k] == ','
  {
    StringShape(s);
    "{" + Digits(s, 0) + "}"
  }

  lemma StringShape(s: Selection)
    ensures var r := "{" + Digits(s, 0) + "}";
            && |r| == (if s.n == 0 then 2 else 2 * s.n + 1)
            && r[0] == '{' && r[|r| - 1] == '}'
            && (forall i :: 0 <= i < s.n ==> r[2 * i + 1] == if Test(s, i) then '1' else '0')
            && (forall k :: 0 < k < |r| - 1 && k % 2 == 0 ==> r[k] == ',')
  {
    var d := Digits(s, 0);
    var r := "{" + d + "}";
    var bits := seq(s.n, i requires 0 <= i => Test(s, i));
    DigitsShape(s, 0);
    forall k | 0 <= k < |d| && k % 2 == 0
      ensures d[k] == if bits[k / 2] then '1' else '0'
    {
      assert d[k] == if Test(s, 0 + k / 2) then '1' else '0';
      assert bits[k / 2] == Test(s, k / 2);
    }
    BracedDigits(s.n, bits, d);
    forall i | 0 <= i < s.n
      ensures r[2 * i + 1] == if Test(s, i) then '1' else '0'
    {
      assert bits[i] == Test(s, i);
    }
    BracedCommas(s.n, d);
    assert |r| == |d| + 2 && r[0] == '{' && r[|r| - 1] == '}';
  }

  /** The digits of a comma-separated run of n digits sit at the odd
      positions once it is braced. */
  lemma BracedDigits(n: nat, bits: seq<bool>, d: seq<char>)
    requires |bits| == n && |d| == (if n == 0 then 0 else 2 * n - 1)
    requires forall k :: 0 <= k < |d| && k % 2 == 0 ==> d[k] == if bits[k / 2] then '1' else '0'
    ensures var r := "{" + d + "}";
            forall i :: 0 <= i < n ==> r[2 * i + 1] == if bits[i] then '1' else '0'
  {
    var r := "{" + d + "}";
    forall i | 0 <= i < n
      ensures r[2 * i + 1] == if bits[i] then '1' else '0'
    {
      var k := 2 * i;
      assert k % 2 == 0 && k / 2 == i && k < |d|;
      assert r[k + 1] == d[k];
    }
  }

  /** The commas of a comma-separated run of n digits sit at the even
      interior positions once it is braced. */
  lemma BracedCommas(n: nat, d: seq<char>)
    requires |d| == if n == 0 then 0 else 2 * n - 1
    requires forall k :: 0 <= k < |d| && k % 2 == 1 ==> d[k] == ','
    ensures var r := "{" + d + "}";
            forall k :: 0 < k < |r| - 1 && k % 2 == 0 ==> r[k] == ','
  {
    var r := "{" + d + "}";
    forall k | 0 < k < |r| - 1 && k % 2 == 0
      ensures r[k] == ','
    {
      var j := k - 1;
      assert j % 2 == 1 && 0 <= j < |d|;
      assert r[j + 1] == d[j];
    }
  }

  /** The digits of bits i .. n-1, each followed by a comma but the last. */
  function Digits(s: Selection, i: nat): seq<char>
    decreases s.n - i
  {
    if i >= s.n then ""
    else
      [if Test(s, i) then '1' else '0'] + (if i == s.n - 1 then "" else ",") + Digits(s, i + 1)
  }

  lemma {:induction false} DigitsShape(s: Selection, i: nat)
    requires i <= s.n
    ensures |Digits(s, i)| == if i == s.n then 0 else 2 * (s.n - i) - 1
    ensures forall k :: 0 <= k < |Digits(s, i)| && k % 2 == 0 ==>
              Digits(s, i)[k] == if Test(s, i + k / 2) then '1' else '0'
    ensures forall k :: 0 <= k < |Digits(s, i)| && k % 2 == 1 ==> Digits(s, i)[k] == ','
    decreases s.n - i
  {
    if i < s.n {
      DigitsShape(s, i + 1);
      var d := Digits(s, i);
      var rest := Digits(s, i + 1);
      if i < s.n - 1 {
        assert d == [if Test(s, i) then '1' else '0', ','] + rest;
        forall k | 2 <= k < |d|
          ensures d[k] == rest[k - 2] && (k - 2) % 2 == k % 2 && i + 1 + (k - 2) / 2 == i + k / 2
        {
        }
      } else {
        assert d == [if Test(s, i) then '1' else '0'];
      }
    }
  }

  /** Reading the digits of a rendering back: digit j stands for 2^(j-i). */
  function ReadDigits(r: seq<char>, i: nat, n: nat): int
    requires |r| >= 2 * n
    decreases n - i
  {
    if i >= n then 0 else (if r[2 * i + 1] == '1' then 1 else 0) + 2 * ReadDigits(r, i + 1, n)
  }

  /** The value of bits i .. n-1 of v. */
  function BitsFrom(v: int, i: nat, n: nat): int
    decreases n - i
  {
    if i >= n then 0 else (if BitOf(v, i) then 1 else 0) + 2 * BitsFrom(v, i + 1, n)
  }

  lemma {:induction false} ReadDigitsBits(s: Selection, i: nat)
    requires i <= s.n
    ensures ReadDigits(String(s), i, s.n) == BitsFrom(s.x, i, s.n)
    decreases s.n - i
  {
    if i < s.n {
      ReadDigitsBits(s, i + 1);
      var r := String(s);
      assert r[2 * i + 1] == if Test(s, i) then '1' else '0';
      assert Test(s, i) == BitOf(s.x, i);
    }
  }

  lemma {:induction false} BitsFromShift(v: int, i: nat, n: nat)
    requires i < n
    ensures BitsFrom(v, i + 1, n) == BitsFrom(v / 2, i, n - 1)
    decreases n - i
  {
    if i + 1 < n {
      BitsFromShift(v, i + 1, n);
    }
  }

  /** A number that fits in n bits is the sum of its bits. */
  lemma {:induction false} BitsFromValue(v: int, n: nat)
    requires 0 <= v < Pow2(n)
    ensures BitsFrom(v, 0, n) == v
  {
    if n > 0 {
      BitsFromShift(v, 0, n);
      BitsFromValue(v / 2, n - 1);
    }
  }

  /** `String` loses nothing for a selection within its n bits: reading its
      digits back gives x. */
  lemma StringRoundTrip(s: Selection)
    requires 0 <= s.x < Pow2(s.n)
    ensures ReadDigits(String(s), 0, s.n) == s.x
  {
    ReadDigitsBits(s, 0);
    BitsFromValue(s.x, s.n);
  }

  /** `TestSelection`: starting from `FirstSelection(n)` and calling `Next`
      while `HasNext` visits all 2^n subsets and stops at `LastSelection(n)`. */
  method EnumerateSelections(n: nat) returns (s: Selection, count: nat)
    ensures s == LastSelection(n) && count == Pow2(n)
  {
    s := FirstSelection(n);
    count := 1;
    while HasNext(s)
      invariant s.n == n && 0 <= s.x < Pow2(n) && count == s.x + 1
      decreases Pow2(n) - s.x
    {
      s := Next(s);
      count := count + 1;
    }
  }
}
